=== FILE: README.md ===
# FreshBulk storefront core in Dafny

FreshBulk is a small bulk-order storefront for vegetables and fruit. This project models
the parts of it that decide something:

- the in-memory store (`MemStorage`): products, orders, their id counters, the generated
  order numbers and the seeded catalogue;
- the shared record shapes and the two fixed enumerations (order status, product category);
- the HTTP handlers' decisions: the id guard, not-found, the ownership rule, and which
  notification goes out after which success;
- the order cart hook (`useOrderCart`), filled from the catalogue and edited in the order table,
  and the add-item dialog, whose line the place-order page does not put in the cart;
- the place-order page's submit guard, payload, saved-address rule and lookup email;
- the catalogue's filter/sort and add-to-cart;
- the admin dashboard's order filter;
- the tracking timeline (`getStepStatus`);
- the saved-address chooser (`useAddresses.selectedAddress`);
- the formatters `formatOrderNumber` and `truncateText`.

Every operation is a pure function on immutable values. A store operation takes a `Store`
and returns the new `Store` with its result. The store's invariant is `Storage.Valid`. It
says:

- every record carries its key as id;
- ids lie below the counters;
- every order's number is the one generated for it.

Every store operation preserves `Storage.Valid`.

Modules, in dependency order:

| file | module | models |
|---|---|---|
| wrappers.dfy | `Wrappers` | `Option` |
| seqs.dfy | `Seqs` | `filter`, `findIndex`, `find` on arrays |
| strings.dfy | `Strings` | `toLowerCase`, `startsWith`, `includes`, `substring`, `String(n)`, `parseInt` |
| schema.dfy | `Schema` | shared/schema.ts |
| tables.dfy | `Tables` | a JavaScript `Map` (keys in insertion order) |
| storage.dfy | `Storage` | server/storage.ts |
| cart.dfy | `Cart` | client/src/hooks/useOrderCart.tsx |
| item_modal.dfy | `ItemModal` | client/src/components/AddItemModal.tsx |
| checkout.dfy | `Checkout` | client/src/pages/PlaceOrder.tsx |
| sorting.dfy | `Sorting` | the stable `Array.prototype.sort` |
| catalog.dfy | `Catalog` | client/src/pages/ProductCatalog.tsx |
| admin_orders.dfy | `AdminOrders` | client/src/pages/AdminDashboard.tsx |
| tracking.dfy | `Tracking` | client/src/pages/TrackOrder.tsx |
| address_choice.dfy | `AddressChoice` | client/src/hooks/useAddresses.tsx |
| formatters.dfy | `Formatters` | client/src/lib/formatters.ts |
| routes.dfy | `Routes` | server/routes.ts |

**Order numbers are not unique for ever.** The program's own text expects them to be.
The comment on `formatOrderNumber` (client/src/lib/formatters.ts:29) names the format
"FBO-XXXXX", with five digits. The `orders` table declares `orderNumber` unique
(shared/schema.ts:26). The generator (server/storage.ts:87-90, 137-138) does something else:

- `createOrder` increments the counter before `generateOrderNumber` reads it. So the order
  with id `n` is numbered from `n + 1`.
- The number is `String(10000 + counter).substring(1)`. That is four zero-padded digits
  while the counter stays below 10000.
- From counter 10000 to 89999 only the counter's last four digits survive, so the numbers
  wrap: orders 1 and 10001 both get "FBO-0002".
- From counter 90000 on, `10000 + counter` has six digits, and the number has five digits
  ("FBO-00000" for counter 90000).

The model follows the generator. It proves that the numbers are unique up to and including
order 10000 (`Storage.OrderNumbersUnique`), and that orders 1 and 10001 collide
(`Storage.WrappedOrdersCollide`). Tracking by number then always finds order 1
(`Storage.WrappedTrackingFindsFirst`).

Some inputs are parameters of the model:

- the clock reading `createdAt` (`now`);
- the library validators (the form's email check `isEmail`; whether a request body passes
  its schema, as `Option` payloads and booleans);
- the locale-aware name comparison (`nameLeq`, required only to be total);
- the address store's answers (`lookup`, the store's `getAddressById`).

## Model

| member | source | states |
|---|---|---|
| Schema.ParseStatus | shared/schema.ts:60-64 | A recognised status text names the status whose label it is; an unrecognised one names none |
| Schema.StatusRoundTrip | shared/schema.ts:60-64 | Every status reads back as itself, so the three labels are distinct |
| Schema.StatusLabels | shared/schema.ts:60-64 | The status labels are exactly "Pending", "In Progress" and "Delivered" |
| Schema.ParseCategory | shared/schema.ts:69-73 | A recognised category text names the category whose label it is; an unrecognised one names none |
| Schema.CategoryRoundTrip | shared/schema.ts:69-73 | Every category reads back as itself |
| Schema.CategoryLabels | shared/schema.ts:69-73 | The category labels are exactly "Vegetables", "Fruits" and "Leafy Greens" |
| Schema.ProductPayloadRoundTrip | shared/schema.ts:16-18 | A product is its insert payload plus the store-assigned id, and nothing else |
| Schema.ApplyPatch | server/storage.ts:112 | The spread keeps the id; every field the patch gives replaces the product's, every field it omits is kept |
| Schema.ApplyPatchNeutral | server/storage.ts:112 | Spreading an empty patch, or a product's own fields, over the product changes nothing |
| Schema.ApplyPatchIdempotent | server/storage.ts:112 | Spreading the same patch twice is spreading it once |
| Seqs.Filter | client/src/pages/AdminDashboard.tsx:43-59 | `filter` keeps only elements satisfying the test and keeps every element that does |
| Seqs.FilterIsSubsequence | client/src/pages/AdminDashboard.tsx:43-59 | `filter` keeps the kept elements in their original order |
| Seqs.FilterKeepsMultiplicity | client/src/pages/AdminDashboard.tsx:43-59 | `filter` keeps each passing element as many times as it occurs and adds nothing |
| Seqs.FilterCount | client/src/pages/AdminDashboard.tsx:43-59 | `filter` keeps an element as often as it occurs when it passes the test, and never when it fails |
| Seqs.FilterKeepsAll | client/src/pages/AdminDashboard.tsx:43-59 | A test every element passes filters nothing out |
| Seqs.FindIndex | client/src/hooks/useOrderCart.tsx:23-25 | `findIndex` is the first index satisfying the test, or -1 exactly when none does |
| Seqs.Find | server/storage.ts:130-134 | `find` is the first element satisfying the test, or none exactly when none does |
| Strings.Lower | client/src/pages/ProductCatalog.tsx:26 | Lowercasing keeps the length, maps each ASCII upper-case letter to its lower-case letter and keeps every other character |
| Strings.LowerIdempotent | client/src/pages/AdminDashboard.tsx:51 | Lowercasing twice is lowercasing once |
| Strings.ContainsIffOccurs | client/src/pages/ProductCatalog.tsx:26 | `includes` holds exactly when the query occurs at some position |
| Strings.ContainsEmpty | client/src/pages/ProductCatalog.tsx:26 | Every text includes the empty query |
| Strings.Substring | client/src/lib/formatters.ts:45 | `substring` with bounds inside the text returns the characters between them, in either order of the bounds, and never more characters than the text has |
| Strings.SubstringSwaps | client/src/lib/formatters.ts:45 | Reversed bounds give the same result as the bounds in order |
| Strings.SubstringClamps | client/src/lib/formatters.ts:45 | A negative bound acts as 0 and a bound past the end acts as the length |
| Strings.NatToString | server/storage.ts:88 | `String(n)` for a natural number is non-empty and starts with a digit |
| Strings.IntToString | client/src/components/AddItemModal.tsx:36 | `toString()` of an integer is non-empty, starts with '-' exactly for a negative number, and a digit follows the sign |
| Strings.NatToStringDigits | server/storage.ts:88 | `String(n)` is a non-empty run of decimal digits, with a leading zero only for 0 |
| Strings.NatToStringValue | server/storage.ts:88 | Reading the digits of `String(n)` back gives `n` |
| Strings.NatToStringInjective | server/storage.ts:88 | Different numbers print differently |
| Strings.ParseInt | client/src/components/AddItemModal.tsx:41 | `parseInt` of the empty text is NaN, and a negative result needs a '-' in the text |
| Strings.ParseIntToString | server/routes.ts:32-36 | `parseInt` reads back every printed integer, in either radix mode |
| Strings.ParseIntRejectsLetters | server/routes.ts:32-36 | `parseInt("abc")` and `parseInt("", 10)` are NaN |
| Strings.DigitPrefixAppend | client/src/components/AddItemModal.tsx:41 | The digit run `parseInt` reads from a text is exactly its leading digits, whatever follows the first non-digit |
| Strings.ParseIntStopsAtNonDigit | client/src/components/AddItemModal.tsx:41 | With radix 10, decimal digits followed by a non-digit (or nothing) read as the value of the digits |
| Strings.ParseUnsigned | server/routes.ts:32 | A text starting with neither white space nor a sign is read as an unsigned magnitude |
| Strings.ParseNegative | server/routes.ts:32 | A text starting with '-' is read as the negated magnitude after it |
| Strings.MagnitudeOfPrinted | server/routes.ts:32 | The printed form of a natural number reads back as that number in either radix mode |
| Strings.ParseIntStopsAtGarbage | client/src/components/AddItemModal.tsx:41 | `parseInt` stops at the first non-digit: "12abc" reads as 12 |
| Strings.ParseIntHexPrefix | server/routes.ts:32 | Without a radix, "0x1A" reads as 26 |
| Strings.ParseIntDecimalIgnoresHex | client/src/components/AddItemModal.tsx:41 | With radix 10, "0x1A" reads as 0 |
| Tables.Put | server/storage.ts:104 | `Map.set` stores the value under the key, keeps the key order of an existing key and appends a new one |
| Tables.Remove | server/storage.ts:117-119 | `Map.delete` reports whether the key was present and removes exactly it, keeping the other keys in order |
| Tables.Values | server/storage.ts:93-95 | `Array.from(map.values())` lists the values in key-insertion order |
| Tables.ValuesAreRows | server/storage.ts:122-124 | The listed values are exactly the stored ones |
| Storage.FiveDigits | server/storage.ts:88 | A five-digit number prints as its leading digit and then its last four digits zero-padded |
| Storage.DropLeadingDigit | server/storage.ts:88 | `substring(1)` of a leading digit followed by four digits is the four digits |
| Storage.GenerateOrderNumber | server/storage.ts:87-90 | Every generated number starts with the prefix "FBO-" |
| Storage.OrderNumberIsPadded | server/storage.ts:87-90 | For a counter up to 9999 the number is "FBO-" and the counter in four zero-padded digits |
| Storage.OrderNumberKeepsLastFourDigits | server/storage.ts:87-90 | For a counter below 90000 the number is "FBO-" and the counter's last four digits, zero-padded |
| Storage.OrderNumberInjective | server/storage.ts:87-90 | Counters up to 9999 get distinct numbers |
| Storage.OrderNumberCollides | server/storage.ts:87-90 | For `c` below 80000, counters `c` and `c + 10000` get the same number |
| Storage.OrderNumberCollisionExample | server/storage.ts:87-90 | Counters 2 and 10002 both give "FBO-0002" |
| Storage.EmptyStore | server/storage.ts:35-40 | The empty store with both counters at 1 satisfies the store invariant |
| Storage.SeedProducts | server/storage.ts:83 | Seeding products one by one keeps the store invariant |
| Storage.SeedAssignsConsecutiveIds | server/storage.ts:47-84 | Seeding `k` products gives them the next `k` ids in payload order and moves the counter on by `k` |
| Storage.SeedCounters | server/storage.ts:83 | Seeding moves the product counter on by the number of payloads and leaves the orders alone |
| Storage.SeedKeys | server/storage.ts:83 | After seeding, the product ids are the old ones plus the next ids, one per payload |
| Storage.SeedKeepsRow | server/storage.ts:83 | Seeding keeps every product that was already stored |
| Storage.SeedNewRow | server/storage.ts:83 | The `i`-th payload is stored under the `i`-th next id |
| Storage.InitialState | server/storage.ts:35-84 | After construction there are exactly the four products with ids 1 to 4, the next product id is 5, and there are no orders |
| Storage.GetAllProducts | server/storage.ts:93-95 | Lists one stored product per key |
| Storage.GetProductById | server/storage.ts:97-99 | The product stored under the id, or none exactly when the id is absent |
| Storage.CreateProduct | server/storage.ts:101-106 | Stores the payload under the current counter, moves the counter on, and leaves earlier products untouched |
| Storage.CreateProductIdsIncrease | server/storage.ts:101-106 | Successive products get strictly increasing ids |
| Storage.UpdateProduct | server/storage.ts:108-115 | A missing id changes nothing and gives none; otherwise only the supplied fields change and the id is kept |
| Storage.DeleteProduct | server/storage.ts:117-119 | Reports whether the id was present; afterwards it is absent and the other products are unchanged |
| Storage.GetAllOrders | server/storage.ts:122-124 | Lists one stored order per key |
| Storage.GetOrderById | server/storage.ts:126-128 | The order stored under the id, or none exactly when the id is absent |
| Storage.GetOrderByOrderNumber | server/storage.ts:130-134 | The first order in insertion order that carries the number, or none exactly when no stored order carries it |
| Storage.FirstNumberedHasSmallestId | server/storage.ts:130-134 | In a list ordered by increasing id, the first order with a number has the smallest id among the orders with that number |
| Storage.ListedOrdersCarryTheirKeys | server/storage.ts:130-134 | Listing the orders yields, at each position, the order whose id is the key at that position |
| Storage.TrackingFindsOldest | server/storage.ts:130-134 | Tracking a number that some stored order carries finds an order, and the one it finds has the smallest id carrying that number |
| Storage.InitialStatus | server/storage.ts:146 | The supplied status when it is non-empty, otherwise "Pending" |
| Storage.CreateOrder | server/storage.ts:136-151 | A fresh id and the number generated from the incremented counter; the payload is copied unchanged (the total is not recomputed); other orders are untouched |
| Storage.AddOrderKeepsValid | server/storage.ts:136-151 | Storing an order under the counter, numbered from the counter's successor, and moving the counter on keeps the store well formed |
| Storage.AppendLargerKeepsAscending | server/storage.ts:149 | `Map.set` of a key larger than every stored one keeps the keys listed in increasing order |
| Storage.ReplaceOrderKeepsValid | server/storage.ts:153-160 | Overwriting an order with one of the same id and number keeps the key order and the store well formed |
| Storage.UpdateOrderStatus | server/storage.ts:153-160 | A missing id changes nothing; otherwise any text becomes the status and every other field and every other order is unchanged |
| Storage.LastFourDigitsDiffer | server/storage.ts:88 | Two counters less than 10000 apart differ in their last four digits |
| Storage.OrderNumbersDistinctWithinWindow | server/storage.ts:87-90 | Two counters below 90000 that are less than 10000 apart get distinct numbers |
| Storage.OrderNumbersUnique | shared/schema.ts:26 | Up to and including order 10000 (order counter at most 10001), no two stored orders share a number |
| Storage.TrackingFindsTheOrder | server/storage.ts:130-134 | Up to and including order 10000, looking up an order's number finds that very order |
| Storage.RepeatedOrdersDistinct | server/storage.ts:136-151 | While the order counter is at most 9999, two orders created from the same payload get distinct ids and distinct numbers |
| Storage.WrappedOrdersCollide | shared/schema.ts:26 | The orders with ids 1 and 10001 carry the same number, against the declared uniqueness |
| Storage.WrappedTrackingFindsFirst | server/storage.ts:130-134 | With orders 1 and 10001 both stored, tracking order 10001's number finds order 1 |
| Cart.LineOf | client/src/hooks/useOrderCart.tsx:23-25 | The first line holding the product, or -1 exactly when no line does |
| Cart.TotalAmount | client/src/hooks/useOrderCart.tsx:13 | The reduce starts at 0: the empty cart totals 0 |
| Cart.TotalNonNegative | client/src/hooks/useOrderCart.tsx:13 | Lines with non-negative totals give a non-negative cart total |
| Cart.TotalAppend | client/src/hooks/useOrderCart.tsx:13 | The total of two carts laid end to end is the sum of their totals |
| Cart.TotalOfSingleLine | client/src/hooks/useOrderCart.tsx:13 | A one-line cart totals that line's total |
| Cart.TotalReplace | client/src/hooks/useOrderCart.tsx:13 | Replacing a line moves the total by the difference of the two line totals |
| Cart.AddItem | client/src/hooks/useOrderCart.tsx:21-42 | A product already in the cart has its first line's quantity raised and total recomputed at the existing price, length kept; a new product is appended; no other line changes |
| Cart.AddItemKeepsDistinct | client/src/hooks/useOrderCart.tsx:23-42 | Adding keeps product ids pairwise distinct |
| Cart.AddItemKeepsConsistent | client/src/hooks/useOrderCart.tsx:35 | Adding a consistent line keeps every line's total equal to price times quantity |
| Cart.MergedLineSum | client/src/hooks/useOrderCart.tsx:32-36 | A merged line totals the two line totals it combines, when both lines are at one price |
| Cart.MergedLineTotal | client/src/hooks/useOrderCart.tsx:23-38 | Adding a product already in the cart raises the cart total by the new item's total |
| Cart.AppendedLineTotal | client/src/hooks/useOrderCart.tsx:39-42 | Adding a new product raises the cart total by that item's total |
| Cart.AddItemTotal | client/src/hooks/useOrderCart.tsx:13-42 | For consistent lines at one price, adding an item raises the cart total by that item's total |
| Cart.RemoveItem | client/src/hooks/useOrderCart.tsx:47-49 | An index in range removes exactly that line, keeping the others in order; any other index changes nothing |
| Cart.RemoveItemTotal | client/src/hooks/useOrderCart.tsx:47-49 | Removing a line takes exactly its total off the cart total |
| Cart.RemoveItemKeepsInvariants | client/src/hooks/useOrderCart.tsx:47-49 | Removing keeps lines consistent and product ids distinct |
| Cart.UpdateQuantity | client/src/hooks/useOrderCart.tsx:52-63 | Line `index` gets the quantity and price times quantity as total; length and every other line are kept |
| Cart.UpdateQuantityKeepsInvariants | client/src/hooks/useOrderCart.tsx:58 | Setting a quantity keeps lines consistent and product ids distinct |
| Cart.UpdateQuantityTotal | client/src/hooks/useOrderCart.tsx:52-63 | Setting a quantity moves the cart total by the change in that line's total |
| Cart.ClearCart | client/src/hooks/useOrderCart.tsx:66-69 | Clearing gives the empty cart, whose total is 0 |
| ItemModal.OnOpenChange | client/src/components/AddItemModal.tsx:25-32 | Opening resets quantity to 1 and clears the selection; closing changes nothing |
| ItemModal.HandleProductChange | client/src/components/AddItemModal.tsx:34-38 | The selected product is a listed product whose printed id is the chosen text, or none when no product's id prints so |
| ItemModal.HandleQuantityChange | client/src/components/AddItemModal.tsx:40-45 | The quantity changes only to a base-10 parse that is positive; otherwise it is kept |
| ItemModal.HandleAddItem | client/src/components/AddItemModal.tsx:47-56 | No line without a product or with quantity below 1; otherwise the product's id, name, unit and price, the quantity, and total price times quantity |
| ItemModal.TransitionsKeepInvariant | client/src/components/AddItemModal.tsx:18-45 | Every dialog transition keeps the quantity at least 1, so a chosen product always yields a line |
| Checkout.FormValid | client/src/pages/PlaceOrder.tsx:23-31 | A valid form has a name, an address line, a city and a pincode, so it holds the fields saving an address needs |
| Checkout.OrderPayload | client/src/pages/PlaceOrder.tsx:102-107 | The payload carries the cart's lines, the cart total, the form's email and status "Pending" |
| Checkout.Submit | client/src/pages/PlaceOrder.tsx:99-140 | An order request is sent exactly when the form is valid and the cart non-empty; it carries the form fields, the cart lines, the cart total and status "Pending" |
| Checkout.SubmittedOrderIsPending | client/src/pages/PlaceOrder.tsx:102-107 | For a body the order schema accepts as the payload itself, posting a submitted payload to the order route creates an order exactly when the route's item check passes; that order is "Pending", carries the cart's lines and total, and gets one confirmation email |
| Checkout.TomatoDialogLine | client/src/components/AddItemModal.tsx:33-56 | In the seeded catalogue, opening the dialog, choosing Tomatoes (id 1, 25 a kg) and typing "4" makes the dialog hand over one line of 4 kg with total 100 |
| Checkout.TomatoOrderScenario | client/src/pages/ProductCatalog.tsx:49-57 | Adding the seeded Tomatoes from the catalogue to an empty cart, editing its quantity to 4 in the order table (PlaceOrder.tsx:400-403, useOrderCart.tsx:52-63), then submitting and posting a body the order schema accepts as the payload gives one line of 4 kg and an order total of 100 |
| Checkout.SaveAddress | client/src/pages/PlaceOrder.tsx:311-334 | An address is saved exactly when email, address line, city and pincode are filled in; it is the default exactly when no addresses are loaded |
| Checkout.LookupEmail | client/src/pages/PlaceOrder.tsx:76-80 | The lookup email follows the typed one only when it contains '@' |
| Checkout.LookupEmailKeepsAt | client/src/pages/PlaceOrder.tsx:76-80 | A lookup email that is empty or contains '@' stays so whatever is typed, and changes only to a text with '@' |
| Checkout.LookupEmailAfterHasAt | client/src/pages/PlaceOrder.tsx:40-80 | From the initial "", after any sequence of typed emails the lookup email is "" or contains '@', and is one of the typed texts: addresses are never fetched for text without '@' |
| Sorting.Insert | client/src/pages/ProductCatalog.tsx:34-47 | Inserting adds exactly one element and keeps a sorted list sorted |
| Sorting.SortBy | client/src/pages/ProductCatalog.tsx:34-47 | Sorting permutes the list and leaves it ordered under the comparison |
| Sorting.SortByAllEqual | client/src/pages/ProductCatalog.tsx:44-45 | A comparison that calls everything equal leaves the order unchanged |
| Catalog.FilterProducts | client/src/pages/ProductCatalog.tsx:23-32 | A product passes exactly when it is in the list, matches the query and passes the category filter; nothing is added |
| Catalog.SortOrder | client/src/pages/ProductCatalog.tsx:34-47 | name-asc and name-desc compare names one way and the other; price-asc ranks a strictly cheaper product first and price-desc last; any other option calls everything equal |
| Catalog.SortOrderTotal | client/src/pages/ProductCatalog.tsx:34-47 | Every sort option's comparison ranks any two products one way or the other |
| Catalog.FilterAndSort | client/src/pages/ProductCatalog.tsx:23-47 | The result is a permutation of the products passing both filters, ordered by the chosen option |
| Catalog.ListedIff | client/src/pages/ProductCatalog.tsx:25-32 | A product is listed exactly when it is in the catalogue, its name or description contains the query ignoring case, and the category filter is "all" or its category |
| Catalog.EmptySearchKeepsAll | client/src/pages/ProductCatalog.tsx:25-32 | No query and category "all" keep every product, in order |
| Catalog.PriceSortOrders | client/src/pages/ProductCatalog.tsx:40-43 | "price-asc" lists prices non-decreasing and "price-desc" non-increasing |
| Catalog.UnknownSortKeepsOrder | client/src/pages/ProductCatalog.tsx:44-45 | Any other sort option leaves the filtered list in its original order |
| Catalog.AddToCartItem | client/src/pages/ProductCatalog.tsx:49-57 | Add-to-cart builds one unit of the product, its total equal to its price |
| AdminOrders.ReplaceFirstSpace | client/src/pages/AdminDashboard.tsx:45 | `replace(" ", "-")` keeps the length |
| AdminOrders.ReplaceFirstSpaceChars | client/src/pages/AdminDashboard.tsx:45 | Every character is kept, except that a space may become '-' |
| AdminOrders.NoSpaceUnchanged | client/src/pages/AdminDashboard.tsx:45 | `replace(" ", "-")` leaves a text without a space unchanged |
| AdminOrders.FirstSpaceAt | client/src/pages/AdminDashboard.tsx:45 | `replace(" ", "-")` turns only the first space into '-' and keeps every other character |
| AdminOrders.JoinedWordsSlug | client/src/pages/AdminDashboard.tsx:45 | Two words joined by a space, the first without a space, become the two words joined by '-' |
| AdminOrders.StatusSlug | client/src/pages/AdminDashboard.tsx:45 | The slug has the status's length and no upper-case letter |
| AdminOrders.PendingSlug | client/src/pages/AdminDashboard.tsx:45 | The slug of "Pending" is "pending" |
| AdminOrders.InProgressSlug | client/src/pages/AdminDashboard.tsx:45 | The slug of "In Progress" is "in-progress" |
| AdminOrders.DeliveredSlug | client/src/pages/AdminDashboard.tsx:45 | The slug of "Delivered" is "delivered" |
| AdminOrders.FilterOrders | client/src/pages/AdminDashboard.tsx:43-59 | Every shown order is listed, matches a non-"all" status filter by slug, and contains a non-empty query in its number, name or phone; every order passing both tests is shown |
| AdminOrders.FilterKeepsOrder | client/src/pages/AdminDashboard.tsx:43-59 | The shown orders keep the dashboard's order |
| AdminOrders.AllAndEmptySearchShowsEverything | client/src/pages/AdminDashboard.tsx:45-50 | Filter "all" with no search shows every order |
| AdminOrders.ShownIff | client/src/pages/AdminDashboard.tsx:43-59 | An order is shown exactly when it is listed and passes both tests |
| Tracking.CurrentStep | client/src/pages/TrackOrder.tsx:69-80 | The current step is the timeline step of a named status (2 for In Progress), and 0 for any other text |
| Tracking.StepStatus | client/src/pages/TrackOrder.tsx:65-85 | Without an order every step is inactive; a current step belongs to the order's status |
| Tracking.ExactlyOneCurrent | client/src/pages/TrackOrder.tsx:58-85 | With an order loaded exactly one of the four steps is current |
| Tracking.Timeline | client/src/pages/TrackOrder.tsx:152-153 | The rendered timeline has one entry per status step, each the step's status |
| Tracking.TimelineShape | client/src/pages/TrackOrder.tsx:82-84 | The timeline is some completed steps, then the current one, then inactive ones |
| Tracking.NoOrderAllInactive | client/src/pages/TrackOrder.tsx:66 | With no order all four steps are inactive |
| Tracking.LaterStatusCompletesMore | client/src/pages/TrackOrder.tsx:69-84 | A later status never shows fewer completed steps |
| Tracking.NamedTimelines | client/src/pages/TrackOrder.tsx:58-84 | The timelines of Pending, In Progress and Delivered |
| Tracking.UnknownStatusLooksPending | client/src/pages/TrackOrder.tsx:69-80 | A status text outside the three shows the same timeline as Pending |
| AddressChoice.AddressesFor | client/src/hooks/useAddresses.tsx:17-28 | An empty email yields no addresses |
| AddressChoice.SelectedAddress | client/src/hooks/useAddresses.tsx:31-34 | None exactly for an empty list; otherwise a member of the list; the picked address when its id is listed; a non-default result only when it was picked |
| AddressChoice.FallbackSelection | client/src/hooks/useAddresses.tsx:31-34 | With nothing picked, or with a picked id that is no longer listed, the first default address wins, and the first address when none is a default |
| AddressChoice.NoEmailNoSelection | client/src/hooks/useAddresses.tsx:20-34 | Without an email nothing is selected |
| Formatters.FormatOrderNumber | client/src/lib/formatters.ts:30-40 | Empty stays empty; a prefixed number is kept; anything else gets "FBO-" in front |
| Formatters.FormatOrderNumberIdempotent | client/src/lib/formatters.ts:30-40 | Formatting twice is formatting once |
| Formatters.GeneratedNumbersDisplayAsIs | client/src/lib/formatters.ts:34-36 | Every number the store generates displays unchanged |
| Formatters.TruncateText | client/src/lib/formatters.ts:43-46 | Fitting or empty text is kept; longer text becomes a prefix of it of length max(maxLength, 0) plus an ellipsis |
| Formatters.TruncateIdempotent | client/src/lib/formatters.ts:43-46 | Truncating truncated text changes nothing |
| Formatters.TruncateKeepsIff | client/src/lib/formatters.ts:43-46 | Non-empty text comes back unchanged exactly when it fits or already has the truncated shape |
| Routes.ParseId | server/routes.ts:32-36 | An empty id is NaN; an id starting with a digit and not with "0x" parses to a non-negative number |
| Routes.GetProduct | server/routes.ts:31-45 | 400 exactly for a non-numeric id; 404 exactly when no product has the id; otherwise the stored product |
| Routes.CreateProduct | server/routes.ts:48-60 | 201 with a new product stored under a fresh id exactly for a valid body; 400 and no change otherwise |
| Routes.UpdateProduct | server/routes.ts:62-85 | 400 for a bad id or body, 404 for a missing product, both without change; otherwise the patched product, stored under its id |
| Routes.DeleteProduct | server/routes.ts:87-101 | 400 for a bad id; 204 exactly when the product existed, else 404; afterwards the id is absent |
| Routes.GetOrder | server/routes.ts:111-130 | 400 for a bad id; 404 for a missing order; 403 exactly when the caller is neither admin nor its customer; otherwise the order |
| Routes.TrackOrder | server/routes.ts:133-142 | The first order in insertion order carrying the number, or 404 exactly when none does |
| Routes.WrappedTrackingAnswersFirst | server/routes.ts:133-142 | With orders 1 and 10001 stored, the route answers order 10001's number with order 1, a different order |
| Routes.PlaceOrder | server/routes.ts:145-177 | 400 with no change and no email for invalid items or body; otherwise 201 with a fresh id under the order counter, the number from the incremented counter, `createdAt` the clock reading, the status defaulted, and every other field (name, email, phone, address, city, pincode, notes, total, items) copied from the body; the order is stored and gets one confirmation email |
| Routes.UpdateStatus | server/routes.ts:180-218 | Any status text is accepted; 400/404 send no email and change nothing; success stores the new status and sends one status email carrying the updated order |
| Routes.ListAddresses | server/routes.ts:221-241 | With an email, admins and that email's owner are served; without one, only admins |
| Routes.GuardAddress | server/routes.ts:244-259 | 400 for a bad id, then 404 for a missing address, then 403 unless admin or owner; only then allowed |
| Routes.GetAddress | server/routes.ts:243-262 | The address exactly when the guard allows it, with the guard's 400/404/403 otherwise |
| Routes.CreateAddressRoute | server/routes.ts:264-282 | 400 for an invalid body; 403 unless admin or the address's email owner; otherwise 201 and a create call |
| Routes.UpdateAddressRoute | server/routes.ts:284-313 | The guard's code, then 400 for an invalid body (checked after ownership); otherwise 200 and an update call |
| Routes.DeleteAddressRoute | server/routes.ts:315-335 | The guard's code, otherwise 204 and a delete call, whatever the delete returns |
| Routes.SetDefaultRoute | server/routes.ts:337-358 | The guard's code, otherwise 200 and a set-default call |
| Routes.StrangersCannotTouchAddresses | server/routes.ts:257-259 | A non-admin never reads, updates, deletes or re-defaults an address under another email |
| Routes.OrderVisibleIff | server/routes.ts:125-127 | A non-admin sees an order exactly when it carries their email |
| Routes.CreatedProductCanBeFetched | server/routes.ts:31-60 | A product just created is served by its id |
| Routes.DeletedProductIsGone | server/routes.ts:87-101 | After a delete the id answers 404, to a fetch and to a second delete |
| Routes.PlacedOrderCanBeTracked | server/routes.ts:133-177 | Up to and including order 10000, a placed order is tracked by the number in the response |
| Routes.StatusUpdateIsTracked | server/routes.ts:180-210 | Up to and including order 10000, after a status update tracking shows the new status, and the email carries the same order as the response |

## Left out

- Address and user storage: the routes call address operations that the in-memory store does not
  implement, so the address handlers take the store's lookup as a parameter and return the
  store call they would make; no invariant over saved addresses (such as one default per
  email) is claimed.
- server/email.ts is not part of this model. Emails are the `Routes.Email` values a handler
  hands over; sending them is fire-and-forget I/O and never changes the response.
- The 500 answers of the handlers: they come from exceptions other than validation errors,
  which the pure model cannot raise.
- Authentication middleware: server/auth.ts is not part of this model. Handlers receive
  the caller's role and email; `isAdmin` and `isAuthenticated` are taken to have passed.
- GET /api/products and GET /api/orders only pass the store's list through; they are
  `Storage.GetAllProducts` and `Storage.GetAllOrders`.
- Prices, line totals and order totals are integers (the smallest currency unit): the program's
  decimal strings, `parseFloat` and `toFixed` are floating point and locale formatting, and
  `formatPrice`, `formatDate` and `formatDateTime` are left out for that reason.
- Catalog.SortOrder: the name comparison `localeCompare` is a parameter, required only to rank
  any two names; nothing is proved about locale order itself.
- Sorting.SortBy: stability is proved only in the form `Sorting.SortByAllEqual` (an
  all-equal comparison keeps the order), not for arbitrary comparisons.
- Text throughout the model is a sequence of characters, not of UTF-16 code units. JavaScript's
  `length`, `substring` and `includes` count code units, so a character outside the Basic
  Multilingual Plane counts 2 there and 1 here, and `substring` there can split a surrogate
  pair. This affects `Strings.Substring`, `Formatters.TruncateText` and the minimum lengths of
  `Checkout.FormValid`.
- Strings.Lower: case folding covers ASCII letters only.
- Strings.ParseInt: whitespace is the ASCII set (space, tab, line feed, carriage return,
  vertical tab, form feed). Results are exact integers: `parseInt` returns a double, so it
  rounds values above 2^53 to the nearest double and gives Infinity past `Number.MAX_VALUE`
  (a quantity typed that large would become Infinity), and neither is modelled.
- Cart.UpdateQuantity: requires an index in range. `PlaceOrder.handleAddItem`, the add-item
  dialog's `onAddItem` (client/src/pages/PlaceOrder.tsx:142-145, 461-465), calls it with
  `items.length`, which in JavaScript spreads `undefined` into a line with no product and a
  NaN total, which the order route's item check then refuses; that call and its result are
  left out. `Checkout.TomatoDialogLine` therefore stops at the line the dialog hands over,
  and `Checkout.TomatoOrderScenario` fills the cart the way the program does, from the
  catalogue's add-to-cart button and the order table's quantity edit.
- Checkout.SubmittedOrderIsPending: the body is taken to pass `insertOrderSchema.parse`
  (server/routes.ts:151) as the payload itself. The schema's `totalAmount` column is `numeric`
  (shared/schema.ts:35) while the page sends a number; how the generated validator treats
  that is library behaviour outside the model, so the lemma does not promise it.
- Checkout.TomatoOrderScenario: rests on the same reading of the order schema as
  `Checkout.SubmittedOrderIsPending`.
- The cart's localStorage persistence, react-query fetching and caching, toasts and
  navigation are I/O.
- The place-order page's effect that copies a selected saved address into the form is left
  out; it only sets form fields.
- Zod validators (email, URL, request schemas) are library calls and enter as predicates or as
  the `Option` of a parsed body.
- Rendering and single-variable UI state (navigation bar, footer, cards, badges, dialogs
  other than the add-item dialog) hold no decisions.

=== FILE: address_choice.dfy ===
/** The saved-address hook: which addresses are fetched and which one is selected. */
module AddressChoice {
  import opened Wrappers
  import opened Schema
  import Seqs

  /** The address list the hook holds: nothing is fetched for an empty email, otherwise
      the server's answer for that email. */
  function AddressesFor(email: string, fetched: seq<Address>): (r: seq<Address>)
    ensures email == "" ==> r == []
    ensures email != "" ==> r == fetched
  {
    if email == "" then [] else fetched
  }

  /** `selectedAddress`: the manually selected address if it is in the list, else the
      first default address, else the first address, else none. `selectedId` is `None`
      while nothing has been picked. */
  function SelectedAddress(addresses: seq<Address>, selectedId: Option<int>): (r: Option<Address>)
    ensures r.None? <==> |addresses| == 0
    ensures r.Some? ==> r.value in addresses
    ensures selectedId.Some? && (exists i :: 0 <= i < |addresses| && addresses[i].id == selectedId.value) ==>
      r.Some? && r.value.id == selectedId.value
    ensures r.Some? && !r.value.isDefault ==> forall i :: 0 <= i < |addresses| && addresses[i].isDefault ==>
      selectedId.Some? && r.value.id == selectedId.value
  {
    var byId := match selectedId
      case Some(id) => Seqs.Find(addresses, (a: Address) => a.id == id)
      case None => None;
    if byId.Some? then byId
    else
      var byDefault := Seqs.Find(addresses, (a: Address) => a.isDefault);
      if byDefault.Some? then byDefault
      else if |addresses| > 0 then Some(addresses[0])
      else None
  }

  /** With nothing picked, or with a picked id that is no longer listed (the hook never
      resets it when an address is deleted or the list is refetched), the first default
      address wins, and the first address when none is a default. */
  lemma {:induction false} FallbackSelection(addresses: seq<Address>, selectedId: Option<int>)
    requires |addresses| > 0
    requires selectedId.None? || forall i :: 0 <= i < |addresses| ==> addresses[i].id != selectedId.value
    ensures var r := SelectedAddress(addresses, selectedId);
      r.Some? &&
      ((exists i :: 0 <= i < |addresses| && addresses[i].isDefault) ==>
        r.value.isDefault &&
        exists i :: 0 <= i < |addresses| && addresses[i] == r.value &&
          forall j :: 0 <= j < i ==> !addresses[j].isDefault) &&
      ((forall i :: 0 <= i < |addresses| ==> !addresses[i].isDefault) ==> r.value == addresses[0])
  {
    if selectedId.Some? {
      var id := selectedId.value;
      assert Seqs.Find(addresses, (a: Address) => a.id == id) == None;
    }
    var k := Seqs.FindIndex(addresses, (a: Address) => a.isDefault);
    if k >= 0 {
      assert Seqs.Find(addresses, (a: Address) => a.isDefault) == Some(addresses[k]);
    }
  }

  /** A customer without an email sees no addresses and so has none selected. */
  lemma NoEmailNoSelection(fetched: seq<Address>, selectedId: Option<int>)
    ensures SelectedAddress(AddressesFor("", fetched), selectedId) == None
  {
  }
}

=== FILE: admin_orders.dfy ===
/** The admin dashboard's order list filter: by status slug and by search text. */
module AdminOrders {
  import opened Schema
  import Strings
  import Seqs

  /** `replace(" ", "-")`: only the first space is replaced. */
  function ReplaceFirstSpace(s: string): (r: string)
    ensures |r| == |s|
  {
    if |s| == 0 then s
    else if s[0] == ' ' then "-" + s[1..]
    else [s[0]] + ReplaceFirstSpace(s[1..])
  }

  /** Without a space the replacement changes nothing. */
  lemma {:induction false} NoSpaceUnchanged(s: string)
    requires ' ' !in s
    ensures ReplaceFirstSpace(s) == s
  {
    if |s| > 0 {
      NoSpaceUnchanged(s[1..]);
      assert s == [s[0]] + s[1..];
    }
  }

  /** The replacement only ever turns a space into '-'. */
  lemma {:induction false} ReplaceFirstSpaceChars(s: string)
    ensures forall i :: 0 <= i < |s| ==> ReplaceFirstSpace(s)[i] == s[i] || (s[i] == ' ' && ReplaceFirstSpace(s)[i] == '-')
  {
    if |s| > 0 && s[0] != ' ' {
      ReplaceFirstSpaceChars(s[1..]);
    }
  }

  /** With the first space at `k`, exactly that space becomes '-'. */
  lemma {:induction false} FirstSpaceAt(s: string, k: nat)
    requires k < |s| && s[k] == ' '
    requires forall i :: 0 <= i < k ==> s[i] != ' '
    ensures ReplaceFirstSpace(s) == s[..k] + "-" + s[k + 1..]
  {
    if k > 0 {
      FirstSpaceAt(s[1..], k - 1);
      assert s[..k] == [s[0]] + s[1..][..k - 1];
      assert s[k + 1..] == s[1..][k..];
    }
  }

  /** The status as the filter buttons name it: lower case, first space turned into '-'. */
  function StatusSlug(status: string): (r: string)
    ensures |r| == |status|
    ensures forall i :: 0 <= i < |r| ==> !('A' <= r[i] <= 'Z')
  {
    ReplaceFirstSpaceChars(Strings.Lower(status));
    ReplaceFirstSpace(Strings.Lower(status))
  }

  /** The three named statuses have the slugs "pending", "in-progress" and "delivered". */
  lemma PendingSlug(text: string)
    requires text == StatusLabel(Pending)
    ensures StatusSlug(text) == "pending"
  {
    var s := Strings.Lower(text);
    assert s == "pending";
    NoSpaceUnchanged(s);
  }

  lemma InProgressSlug(text: string)
    requires text == StatusLabel(InProgress)
    ensures StatusSlug(text) == "in-progress"
  {
    LowerInProgress(text);
    JoinedWordsSlug("in", "progress");
  }

  lemma LowerInProgress(text: string)
    requires text == "In Progress"
    ensures Strings.Lower(text) == "in" + " " + "progress"
  {
  }

  /** Two words joined by a space become the same words joined by '-'. */
  lemma {:induction false} JoinedWordsSlug(a: string, b: string)
    requires ' ' !in a
    ensures ReplaceFirstSpace(a + " " + b) == a + "-" + b
  {
    if |a| > 0 {
      JoinedWordsSlug(a[1..], b);
      assert (a + " " + b)[1..] == a[1..] + " " + b;
      assert a + "-" + b == [a[0]] + (a[1..] + "-" + b);
    }
  }

  lemma DeliveredSlug(text: string)
    requires text == StatusLabel(Delivered)
    ensures StatusSlug(text) == "delivered"
  {
    var s := Strings.Lower(text);
    assert s == "delivered";
    NoSpaceUnchanged(s);
  }

  predicate PassesStatus(o: Order, statusFilter: string) {
    statusFilter == "all" || StatusSlug(o.status) == statusFilter
  }

  /** An empty search passes everything; otherwise the order number, customer name or
      phone must contain it, ignoring case. */
  predicate PassesSearch(o: Order, query: string) {
    var q := Strings.Lower(query);
    || query == ""
    || Strings.Contains(Strings.Lower(o.orderNumber), q)
    || Strings.Contains(Strings.Lower(o.customerName), q)
    || Strings.Contains(Strings.Lower(o.customerPhone), q)
  }

  predicate Kept(o: Order, statusFilter: string, query: string) {
    PassesStatus(o, statusFilter) && PassesSearch(o, query)
  }

  /** `filteredOrders`. */
  function FilterOrders(orders: seq<Order>, statusFilter: string, query: string): (r: seq<Order>)
    ensures forall i :: 0 <= i < |r| ==> r[i] in orders
    ensures forall i :: 0 <= i < |r| ==> statusFilter != "all" ==> StatusSlug(r[i].status) == statusFilter
    ensures forall i :: 0 <= i < |r| ==> query != "" ==>
      var q := Strings.Lower(query);
      || Strings.Contains(Strings.Lower(r[i].orderNumber), q)
      || Strings.Contains(Strings.Lower(r[i].customerName), q)
      || Strings.Contains(Strings.Lower(r[i].customerPhone), q)
    ensures forall i :: 0 <= i < |orders| && Kept(orders[i], statusFilter, query) ==> orders[i] in r
  {
    Seqs.Filter(orders, (o: Order) => Kept(o, statusFilter, query))
  }

  /** The filtered list keeps the dashboard's order. */
  lemma FilterKeepsOrder(orders: seq<Order>, statusFilter: string, query: string)
    ensures Seqs.IsSubsequence(FilterOrders(orders, statusFilter, query), orders)
  {
    Seqs.FilterIsSubsequence(orders, (o: Order) => Kept(o, statusFilter, query));
  }

  /** "all" with an empty search shows every order. */
  lemma AllAndEmptySearchShowsEverything(orders: seq<Order>)
    ensures FilterOrders(orders, "all", "") == orders
  {
    Seqs.FilterKeepsAll(orders, (o: Order) => Kept(o, "all", ""));
  }

  /** An order is shown exactly when it passes both tests. */
  lemma ShownIff(orders: seq<Order>, statusFilter: string, query: string, o: Order)
    ensures o in FilterOrders(orders, statusFilter, query) <==> o in orders && Kept(o, statusFilter, query)
  {
    var r := FilterOrders(orders, statusFilter, query);
    if o in r {
      var i :| 0 <= i < |r| && r[i] == o;
    }
    if o in orders && Kept(o, statusFilter, query) {
      var i :| 0 <= i < |orders| && orders[i] == o;
    }
  }
}

=== FILE: cart.dfy ===
/** The order cart: a sequence of order lines with merge-by-product, remove-by-index,
    set-quantity, clear, and the running total. */
module Cart {
  import opened Schema
  import Seqs

  /** The cart total: the line totals summed from the left, starting at 0. */
  function TotalAmount(items: seq<OrderItem>): (r: int)
    ensures |items| == 0 ==> r == 0
    decreases |items|
  {
    if |items| == 0 then 0 else TotalAmount(items[..|items| - 1]) + items[|items| - 1].total
  }

  /** Lines with non-negative totals give a non-negative cart total. */
  lemma {:induction false} TotalNonNegative(items: seq<OrderItem>)
    requires forall i :: 0 <= i < |items| ==> items[i].total >= 0
    ensures TotalAmount(items) >= 0
    decreases |items|
  {
    if |items| > 0 {
      TotalNonNegative(items[..|items| - 1]);
    }
  }

  /** Each line's total is its price times its quantity. */
  predicate LineConsistent(item: OrderItem) {
    item.total == item.price * item.quantity
  }

  ghost predicate LinesConsistent(items: seq<OrderItem>) {
    forall i :: 0 <= i < |items| ==> LineConsistent(items[i])
  }

  /** No product appears on two lines. */
  ghost predicate DistinctProducts(items: seq<OrderItem>) {
    forall i, j :: 0 <= i < j < |items| ==> items[i].productId != items[j].productId
  }

  /** The first line holding product `productId`, or -1. */
  function LineOf(items: seq<OrderItem>, productId: int): (k: int)
    ensures -1 <= k < |items|
    ensures k == -1 <==> forall i :: 0 <= i < |items| ==> items[i].productId != productId
    ensures k >= 0 ==> items[k].productId == productId
    ensures k >= 0 ==> forall i :: 0 <= i < k ==> items[i].productId != productId
  {
    Seqs.FindIndex(items, (item: OrderItem) => item.productId == productId)
  }

  /** `addItem`: a product already in the cart has its quantity raised by the new quantity
      and its total recomputed at the line's existing price; a new product is appended. */
  function AddItem(items: seq<OrderItem>, newItem: OrderItem): (r: seq<OrderItem>)
    ensures var k := LineOf(items, newItem.productId);
      && (k >= 0 ==>
            && |r| == |items|
            && r[k].productId == newItem.productId
            && r[k].productName == items[k].productName && r[k].unit == items[k].unit
            && r[k].price == items[k].price
            && r[k].quantity == items[k].quantity + newItem.quantity
            && r[k].total == r[k].quantity * items[k].price
            && forall i :: 0 <= i < |items| && i != k ==> r[i] == items[i])
      && (k == -1 ==> |r| == |items| + 1 && r[..|items|] == items && r[|items|] == newItem)
  {
    var k := LineOf(items, newItem.productId);
    if k >= 0 then
      var existing := items[k];
      var quantity := existing.quantity + newItem.quantity;
      items[k := existing.(quantity := quantity, total := quantity * existing.price)]
    else
      items + [newItem]
  }

  /** `removeItem`: keeps every line whose position differs from `index`. */
  function RemoveItem(items: seq<OrderItem>, index: int): (r: seq<OrderItem>)
    ensures 0 <= index < |items| ==> r == items[..index] + items[index + 1..]
    ensures !(0 <= index < |items|) ==> r == items
    decreases |items|
  {
    if |items| == 0 then []
    else if index == 0 then items[1..]
    else [items[0]] + RemoveItem(items[1..], index - 1)
  }

  /** `updateQuantity`: line `index` gets the new quantity and the total at its price. */
  function UpdateQuantity(items: seq<OrderItem>, index: int, quantity: int): (r: seq<OrderItem>)
    requires 0 <= index < |items|
    ensures |r| == |items|
    ensures r[index].quantity == quantity && r[index].total == items[index].price * quantity
    ensures r[index].productId == items[index].productId && r[index].price == items[index].price
    ensures r[index].productName == items[index].productName && r[index].unit == items[index].unit
    ensures forall i :: 0 <= i < |items| && i != index ==> r[i] == items[i]
  {
    var item := items[index];
    items[index := item.(quantity := quantity, total := item.price * quantity)]
  }

  /** `clearCart`. */
  function ClearCart(): (r: seq<OrderItem>)
    ensures |r| == 0 && TotalAmount(r) == 0
  {
    []
  }

  // ---------------------------------------------------------------- totals

  lemma {:induction false} TotalAppend(a: seq<OrderItem>, b: seq<OrderItem>)
    ensures TotalAmount(a + b) == TotalAmount(a) + TotalAmount(b)
    decreases |b|
  {
    if |b| > 0 {
      var ab := a + b;
      assert ab[..|ab| - 1] == a + b[..|b| - 1];
      TotalAppend(a, b[..|b| - 1]);
    } else {
      assert a + b == a;
    }
  }

  /** Replacing one line changes the total by the difference of the two line totals. */
  lemma TotalReplace(items: seq<OrderItem>, index: int, line: OrderItem)
    requires 0 <= index < |items|
    ensures TotalAmount(items[index := line]) == TotalAmount(items) - items[index].total + line.total
  {
    var pre, post := items[..index], items[index + 1..];
    assert items == pre + [items[index]] + post;
    assert items[index := line] == pre + [line] + post;
    TotalAppend(pre + [items[index]], post);
    TotalAppend(pre, [items[index]]);
    TotalAppend(pre + [line], post);
    TotalAppend(pre, [line]);
    assert TotalAmount([line]) == line.total by {
      assert [line][..0] == [];
    }
    assert TotalAmount([items[index]]) == items[index].total by {
      assert [items[index]][..0] == [];
    }
  }

  /** Adding to an empty cart, or clearing, gives totals 0 and the item's total. */
  lemma TotalOfSingleLine(item: OrderItem)
    ensures TotalAmount([item]) == item.total
  {
    assert [item][..0] == [];
  }

  /** Distributing a price over a sum of quantities; used by `MergedLineSum`. */
  lemma Distribute(a: int, b: int, p: int)
    ensures (a + b) * p == p * a + p * b
  {
  }

  // ---------------------------------------------------------------- invariants

  /** `addItem` keeps product ids pairwise distinct. */
  lemma AddItemKeepsDistinct(items: seq<OrderItem>, newItem: OrderItem)
    requires DistinctProducts(items)
    ensures DistinctProducts(AddItem(items, newItem))
  {
    var r := AddItem(items, newItem);
    var k := LineOf(items, newItem.productId);
    if k == -1 {
      forall i, j | 0 <= i < j < |r|
        ensures r[i].productId != r[j].productId
      {
        if j == |items| {
          assert r[i] == items[i];
        } else {
          assert r[i] == items[i] && r[j] == items[j];
        }
      }
    } else {
      forall i, j | 0 <= i < j < |r|
        ensures r[i].productId != r[j].productId
      {
        assert r[i].productId == items[i].productId;
        assert r[j].productId == items[j].productId;
      }
    }
  }

  /** `addItem` of a consistent line keeps every line consistent. */
  lemma AddItemKeepsConsistent(items: seq<OrderItem>, newItem: OrderItem)
    requires LinesConsistent(items) && LineConsistent(newItem)
    ensures LinesConsistent(AddItem(items, newItem))
  {
    var r := AddItem(items, newItem);
    var k := LineOf(items, newItem.productId);
    if k == -1 {
      forall i | 0 <= i < |r| ensures LineConsistent(r[i]) {
        if i < |items| { assert r[i] == r[..|items|][i]; }
      }
    }
  }

  /** When the line merged into has the new item's price, the cart total grows by exactly
      the new item's total. */
  lemma AddItemTotal(items: seq<OrderItem>, newItem: OrderItem)
    requires LinesConsistent(items) && LineConsistent(newItem)
    requires forall i :: 0 <= i < |items| && items[i].productId == newItem.productId ==>
               items[i].price == newItem.price
    ensures TotalAmount(AddItem(items, newItem)) == TotalAmount(items) + newItem.total
  {
    var k := LineOf(items, newItem.productId);
    if k == -1 {
      AppendedLineTotal(items, newItem);
    } else {
      MergedLineTotal(items, newItem, k);
    }
  }

  lemma AppendedLineTotal(items: seq<OrderItem>, newItem: OrderItem)
    requires LineOf(items, newItem.productId) == -1
    ensures TotalAmount(AddItem(items, newItem)) == TotalAmount(items) + newItem.total
  {
    var r := AddItem(items, newItem);
    assert r == items + [newItem];
    TotalAppend(items, [newItem]);
    TotalOfSingleLine(newItem);
  }

  lemma MergedLineTotal(items: seq<OrderItem>, newItem: OrderItem, k: int)
    requires k == LineOf(items, newItem.productId) && k >= 0
    requires LineConsistent(items[k]) && LineConsistent(newItem)
    requires items[k].price == newItem.price
    ensures TotalAmount(AddItem(items, newItem)) == TotalAmount(items) + newItem.total
  {
    var r := AddItem(items, newItem);
    MergedLineSum(items[k], newItem, r[k]);
    assert r == items[k := r[k]];
    TotalReplace(items, k, r[k]);
  }

  /** The merged line's total is the sum of the two line totals it replaces. */
  lemma MergedLineSum(existing: OrderItem, newItem: OrderItem, merged: OrderItem)
    requires LineConsistent(existing) && LineConsistent(newItem)
    requires existing.price == newItem.price
    requires merged.quantity == existing.quantity + newItem.quantity
    requires merged.total == merged.quantity * existing.price
    ensures merged.total == existing.total + newItem.total
  {
    Distribute(existing.quantity, newItem.quantity, existing.price);
  }

  /** `updateQuantity` keeps every line consistent and the product ids unchanged. */
  lemma UpdateQuantityKeepsInvariants(items: seq<OrderItem>, index: int, quantity: int)
    requires 0 <= index < |items|
    requires LinesConsistent(items) && DistinctProducts(items)
    ensures LinesConsistent(UpdateQuantity(items, index, quantity))
    ensures DistinctProducts(UpdateQuantity(items, index, quantity))
  {
    var r := UpdateQuantity(items, index, quantity);
    forall i, j | 0 <= i < j < |r|
      ensures r[i].productId != r[j].productId
    {
      assert r[i].productId == items[i].productId && r[j].productId == items[j].productId;
    }
  }

  /** `updateQuantity` moves the total by the change in that line's total. */
  lemma UpdateQuantityTotal(items: seq<OrderItem>, index: int, quantity: int)
    requires 0 <= index < |items|
    ensures TotalAmount(UpdateQuantity(items, index, quantity)) ==
            TotalAmount(items) - items[index].total + items[index].price * quantity
  {
    var r := UpdateQuantity(items, index, quantity);
    assert r == items[index := r[index]];
    TotalReplace(items, index, r[index]);
  }

  /** `removeItem` with an index in range takes exactly that line's total off; it keeps the
      invariants. */
  lemma RemoveItemTotal(items: seq<OrderItem>, index: int)
    requires 0 <= index < |items|
    ensures TotalAmount(RemoveItem(items, index)) == TotalAmount(items) - items[index].total
  {
    var pre, post := items[..index], items[index + 1..];
    assert items == pre + [items[index]] + post;
    TotalAppend(pre + [items[index]], post);
    TotalAppend(pre, [items[index]]);
    TotalAppend(pre, post);
    TotalOfSingleLine(items[index]);
  }

  lemma RemoveItemKeepsInvariants(items: seq<OrderItem>, index: int)
    requires LinesConsistent(items) && DistinctProducts(items)
    ensures LinesConsistent(RemoveItem(items, index)) && DistinctProducts(RemoveItem(items, index))
  {
    var r := RemoveItem(items, index);
    if 0 <= index < |items| {
      forall i | 0 <= i < |r| ensures r[i] == items[if i < index then i else i + 1] {
        if i < index { assert r[i] == items[..index][i]; } else { assert r[i] == items[index + 1..][i - index]; }
      }
      forall i, j | 0 <= i < j < |r| ensures r[i].productId != r[j].productId {
        assert r[i] == items[if i < index then i else i + 1];
        assert r[j] == items[if j < index then j else j + 1];
      }
    }
  }
}

=== FILE: catalog.dfy ===
/** The product catalog page: search, category filter, sort, and add-to-cart. */
module Catalog {
  import opened Schema
  import Strings
  import Seqs
  import Sorting
  import Cart

  /** The name or the description (when there is one) contains the query, ignoring case. */
  predicate MatchesQuery(p: Product, query: string) {
    var q := Strings.Lower(query);
    || Strings.Contains(Strings.Lower(p.name), q)
    || (p.description.Some? && Strings.Contains(Strings.Lower(p.description.value), q))
  }

  /** The category filter is "all" or names the product's category. */
  predicate InCategory(p: Product, categoryFilter: string) {
    categoryFilter == "all" || p.category == categoryFilter
  }

  /** The search filter, then the category filter, in list order. */
  function FilterProducts(products: seq<Product>, query: string, categoryFilter: string): (r: seq<Product>)
    ensures |r| <= |products|
    ensures forall p :: p in r <==> p in products && MatchesQuery(p, query) && InCategory(p, categoryFilter)
  {
    Seqs.Filter(Seqs.Filter(products, (p: Product) => MatchesQuery(p, query)),
                (p: Product) => InCategory(p, categoryFilter))
  }

  /** The comparison each sort option uses; names are compared by the locale-aware
      `nameLeq`. Any other option compares everything as equal. */
  function SortOrder(sortOption: string, nameLeq: (string, string) -> bool): (r: (Product, Product) -> bool)
    ensures sortOption == "name-asc" ==> forall a: Product, b: Product :: r(a, b) == nameLeq(a.name, b.name)
    ensures sortOption == "name-desc" ==> forall a: Product, b: Product :: r(a, b) == nameLeq(b.name, a.name)
    ensures sortOption == "price-asc" ==> forall a: Product, b: Product :: a.price < b.price ==> r(a, b) && !r(b, a)
    ensures sortOption == "price-desc" ==> forall a: Product, b: Product :: a.price < b.price ==> r(b, a) && !r(a, b)
    ensures sortOption !in {"name-asc", "name-desc", "price-asc", "price-desc"} ==>
      forall a: Product, b: Product :: r(a, b)
  {
    if sortOption == "name-asc" then (a: Product, b: Product) => nameLeq(a.name, b.name)
    else if sortOption == "name-desc" then (a: Product, b: Product) => nameLeq(b.name, a.name)
    else if sortOption == "price-asc" then (a: Product, b: Product) => a.price <= b.price
    else if sortOption == "price-desc" then (a: Product, b: Product) => b.price <= a.price
    else (a: Product, b: Product) => true
  }

  /** The name comparison ranks any two names one way or the other. */
  ghost predicate TotalOnNames(nameLeq: (string, string) -> bool) {
    forall x, y :: nameLeq(x, y) || nameLeq(y, x)
  }

  lemma SortOrderTotal(sortOption: string, nameLeq: (string, string) -> bool)
    requires TotalOnNames(nameLeq)
    ensures Sorting.Total(SortOrder(sortOption, nameLeq))
  {
    var leq := SortOrder(sortOption, nameLeq);
    forall a: Product, b: Product
      ensures leq(a, b) || leq(b, a)
    {
      assert nameLeq(a.name, b.name) || nameLeq(b.name, a.name);
    }
  }

  /** `filteredAndSortedProducts`: a new list (the input is a value and stays as it was)
      holding exactly the kept products, ordered by the chosen comparison. */
  function FilterAndSort(products: seq<Product>, query: string, categoryFilter: string,
                         sortOption: string, nameLeq: (string, string) -> bool): (r: seq<Product>)
    requires TotalOnNames(nameLeq)
    ensures multiset(r) == multiset(FilterProducts(products, query, categoryFilter))
    ensures Sorting.SortedBy(r, SortOrder(sortOption, nameLeq))
  {
    SortOrderTotal(sortOption, nameLeq);
    Sorting.SortBy(FilterProducts(products, query, categoryFilter), SortOrder(sortOption, nameLeq))
  }

  /** A product is listed exactly when it is in the catalog, matches the search and is in
      the chosen category. */
  lemma ListedIff(products: seq<Product>, query: string, categoryFilter: string,
                  sortOption: string, nameLeq: (string, string) -> bool, p: Product)
    requires TotalOnNames(nameLeq)
    ensures p in FilterAndSort(products, query, categoryFilter, sortOption, nameLeq) <==>
            p in products && MatchesQuery(p, query) && InCategory(p, categoryFilter)
  {
    var r := FilterAndSort(products, query, categoryFilter, sortOption, nameLeq);
    var first := Seqs.Filter(products, (p: Product) => MatchesQuery(p, query));
    var kept := FilterProducts(products, query, categoryFilter);
    assert p in r <==> p in multiset(r);
    assert p in kept <==> p in multiset(kept);
    if p in kept {
      var i :| 0 <= i < |kept| && kept[i] == p;
      assert kept[i] in first;
    }
    if p in products && MatchesQuery(p, query) && InCategory(p, categoryFilter) {
      var i :| 0 <= i < |products| && products[i] == p;
      assert p in first;
      var j :| 0 <= j < |first| && first[j] == p;
    }
  }

  /** With no query and category "all", nothing is filtered out. */
  lemma EmptySearchKeepsAll(products: seq<Product>)
    ensures FilterProducts(products, "", "all") == products
  {
    forall i | 0 <= i < |products| ensures MatchesQuery(products[i], "") {
      Strings.ContainsEmpty(Strings.Lower(products[i].name));
    }
    Seqs.FilterKeepsAll(products, (p: Product) => MatchesQuery(p, ""));
    Seqs.FilterKeepsAll(products, (p: Product) => InCategory(p, "all"));
  }

  /** "price-asc" lists prices non-decreasing and "price-desc" non-increasing. */
  lemma PriceSortOrders(products: seq<Product>, query: string, categoryFilter: string,
                        nameLeq: (string, string) -> bool)
    requires TotalOnNames(nameLeq)
    ensures var r := FilterAndSort(products, query, categoryFilter, "price-asc", nameLeq);
      forall i :: 0 <= i < |r| - 1 ==> r[i].price <= r[i + 1].price
    ensures var r := FilterAndSort(products, query, categoryFilter, "price-desc", nameLeq);
      forall i :: 0 <= i < |r| - 1 ==> r[i].price >= r[i + 1].price
  {
  }

  /** An unrecognised sort option leaves the filtered list in its original order. */
  lemma UnknownSortKeepsOrder(products: seq<Product>, query: string, categoryFilter: string,
                              sortOption: string, nameLeq: (string, string) -> bool)
    requires TotalOnNames(nameLeq)
    requires sortOption !in {"name-asc", "name-desc", "price-asc", "price-desc"}
    ensures FilterAndSort(products, query, categoryFilter, sortOption, nameLeq) ==
            FilterProducts(products, query, categoryFilter)
  {
    Sorting.SortByAllEqual(FilterProducts(products, query, categoryFilter), SortOrder(sortOption, nameLeq));
  }

  /** `handleAddToCart`: one unit of the product, its total equal to its price. */
  function AddToCartItem(p: Product): (r: OrderItem)
    ensures r.productId == p.id && r.productName == p.name && r.unit == p.unit
    ensures r.price == p.price && r.quantity == 1 && r.total == p.price
    ensures Cart.LineConsistent(r)
  {
    OrderItem(p.id, p.name, p.price, 1, p.unit, p.price)
  }
}

=== FILE: checkout.dfy ===
/** The place-order page: form validation, the order payload, and the saved-address rules. */
module Checkout {
  import opened Wrappers
  import opened Schema
  import Strings
  import Cart
  import Storage
  import Routes
  import ItemModal
  import Catalog

  /** The order form's fields. */
  datatype OrderForm = OrderForm(
    customerName: string,
    customerEmail: string,
    customerPhone: string,
    deliveryAddress: string,
    deliveryCity: string,
    deliveryPincode: string,
    notes: Option<string>)

  const MinNameLength := 2
  const MinPhoneLength := 10
  const MinAddressLength := 5
  const MinCityLength := 2
  const MinPincodeLength := 5

  /** The form schema: the minimum lengths, and the email check (a library validator, given
      here as the predicate `isEmail`). */
  predicate FormValid(f: OrderForm, isEmail: string -> bool): (r: bool)
    ensures r ==> f.customerName != [] && f.deliveryAddress != [] && f.deliveryCity != [] && f.deliveryPincode != []
  {
    && |f.customerName| >= MinNameLength
    && isEmail(f.customerEmail)
    && |f.customerPhone| >= MinPhoneLength
    && |f.deliveryAddress| >= MinAddressLength
    && |f.deliveryCity| >= MinCityLength
    && |f.deliveryPincode| >= MinPincodeLength
  }

  /** What submitting does: the form is rejected before submission, an empty cart stops it,
      otherwise an order request is sent. */
  datatype SubmitOutcome = FormRejected | NoItems | SendOrder(payload: NewOrder)

  /** The payload: the form fields, the cart lines, the cart total, and status "Pending". */
  function OrderPayload(f: OrderForm, items: seq<OrderItem>): (r: NewOrder)
    ensures r.items == items && r.totalAmount == Cart.TotalAmount(items)
    ensures r.status == Some("Pending") && r.customerEmail == f.customerEmail
  {
    NewOrder(f.customerName, f.customerEmail, f.customerPhone,
             f.deliveryAddress, f.deliveryCity, f.deliveryPincode,
             Some(StatusLabel(Pending)), f.notes, Cart.TotalAmount(items), items)
  }

  function Submit(f: OrderForm, items: seq<OrderItem>, isEmail: string -> bool): (r: SubmitOutcome)
    ensures r.SendOrder? <==> FormValid(f, isEmail) && |items| > 0
    ensures r == NoItems <==> FormValid(f, isEmail) && |items| == 0
    ensures r.SendOrder? ==>
      && r.payload.items == items
      && r.payload.totalAmount == Cart.TotalAmount(items)
      && r.payload.status == Some("Pending")
      && r.payload.customerName == f.customerName && r.payload.customerEmail == f.customerEmail
      && r.payload.customerPhone == f.customerPhone && r.payload.deliveryAddress == f.deliveryAddress
      && r.payload.deliveryCity == f.deliveryCity && r.payload.deliveryPincode == f.deliveryPincode
      && r.payload.notes == f.notes
  {
    if !FormValid(f, isEmail) then FormRejected
    else if |items| == 0 then NoItems
    else SendOrder(OrderPayload(f, items))
  }

  /** Submitting a valid form with a non-empty cart and posting the payload to the order
      route creates a "Pending" order carrying the cart's lines and total, and sends one
      confirmation for it, exactly when the route's item validation passes (`itemsValid`).
      The body is taken to pass the order schema as the payload itself: whether the schema
      accepts the client's numeric total is outside the model. */
  lemma SubmittedOrderIsPending(s: Storage.Store, f: OrderForm, items: seq<OrderItem>,
                                isEmail: string -> bool, itemsValid: bool, now: int)
    requires Storage.Valid(s)
    requires Submit(f, items, isEmail).SendOrder?
    ensures var r := Routes.PlaceOrder(s, itemsValid, Some(Submit(f, items, isEmail).payload), now);
      && (r.reply.Created? <==> itemsValid)
      && (r.reply.Created? ==>
            && r.reply.value.status == "Pending"
            && r.reply.value.totalAmount == Cart.TotalAmount(items)
            && r.reply.value.items == items
            && r.emails == [Routes.OrderConfirmation(r.reply.value)])
  {
  }

  /** The add-item dialog on the seeded catalogue, whose first product is Tomatoes (id 1, 25
      a kg): opening it, choosing Tomatoes and typing "4" makes the dialog hand over one line
      of 4 kg with total 100. The page's handler does not put this line in the cart. */
  lemma TomatoDialogLine(products: seq<Product>)
    requires |products| > 0 && products[0] == ProductWithId(Storage.InitialProducts[0], 1)
    ensures var state := ItemModal.HandleQuantityChange(
        ItemModal.HandleProductChange(ItemModal.OnOpenChange(ItemModal.Blank(), true), products, "1"), "4");
      ItemModal.HandleAddItem(state) == Some(OrderItem(1, "Tomatoes", 25, 4, "kg", 100))
  {
    var tomatoes := products[0];
    assert tomatoes.id == 1 && tomatoes.name == "Tomatoes" && tomatoes.price == 25 && tomatoes.unit == "kg";
    var shown := ItemModal.OnOpenChange(ItemModal.Blank(), true);
    assert Strings.IntToString(1) == "1";
    var chosen := ItemModal.HandleProductChange(shown, products, "1");
    assert chosen.selectedProduct == Some(tomatoes);
    Strings.ParseIntStopsAtNonDigit("4", "");
    assert "4" + "" == "4";
    var state := ItemModal.HandleQuantityChange(chosen, "4");
    assert state.quantity == 4;
  }

  /** The way a line reaches the cart: Tomatoes (id 1, 25 a kg) added from the catalogue to an
      empty cart, its quantity edited to 4 in the order table, and the form submitted and
      posted (the body passing the order schema as the payload) gives one line of 4 kg and
      an order total of 100. */
  lemma TomatoOrderScenario(s: Storage.Store, tomatoes: Product, f: OrderForm,
                            isEmail: string -> bool, now: int)
    requires Storage.Valid(s) && FormValid(f, isEmail)
    requires tomatoes == ProductWithId(Storage.InitialProducts[0], 1)
    ensures var added := Cart.AddItem([], Catalog.AddToCartItem(tomatoes));
      && |added| == 1
      && var items := Cart.UpdateQuantity(added, 0, 4);
      var r := Routes.PlaceOrder(s, true, Some(Submit(f, items, isEmail).payload), now);
      && items == [OrderItem(1, "Tomatoes", 25, 4, "kg", 100)]
      && r.reply.Created?
      && r.reply.value.totalAmount == 100
      && r.reply.value.items == items
  {
    assert tomatoes.id == 1 && tomatoes.name == "Tomatoes" && tomatoes.price == 25 && tomatoes.unit == "kg";
    var line := Catalog.AddToCartItem(tomatoes);
    var added := Cart.AddItem([], line);
    assert added == [line];
    var items := Cart.UpdateQuantity(added, 0, 4);
    assert items == [OrderItem(1, "Tomatoes", 25, 4, "kg", 100)];
    Cart.TotalOfSingleLine(items[0]);
  }

  // ---------------------------------------------------------------- saved addresses

  /** Saving the form as an address: only when email, address line, city and pincode are all
      filled in; the address becomes the default exactly when no saved addresses are loaded. */
  function SaveAddress(f: OrderForm, loaded: seq<Address>): (r: Option<NewAddress>)
    ensures r.Some? <==>
      f.customerEmail != "" && f.deliveryAddress != "" && f.deliveryCity != "" && f.deliveryPincode != ""
    ensures r.Some? ==> (r.value.isDefault <==> |loaded| == 0)
    ensures r.Some? ==>
      && r.value.customerEmail == f.customerEmail && r.value.customerName == f.customerName
      && r.value.customerPhone == f.customerPhone && r.value.addressLine == f.deliveryAddress
      && r.value.city == f.deliveryCity && r.value.pincode == f.deliveryPincode
  {
    var draft := NewAddress(f.customerEmail, f.customerName, f.customerPhone,
                            f.deliveryAddress, f.deliveryCity, f.deliveryPincode, |loaded| == 0);
    if draft.customerEmail != "" && draft.addressLine != "" && draft.city != "" && draft.pincode != ""
    then Some(draft)
    else None
  }

  /** The email used to look up saved addresses follows the typed email only once it
      contains '@'. */
  function LookupEmail(current: string, typed: string): (r: string)
    ensures Strings.Contains(typed, "@") ==> r == typed
    ensures !Strings.Contains(typed, "@") ==> r == current
  {
    if typed != "" && Strings.Contains(typed, "@") then typed else current
  }

  /** Addresses are never looked up under text without an '@': once the lookup email is
      empty or contains one, every typed text keeps it so. */
  lemma LookupEmailKeepsAt(current: string, typed: string)
    requires current == "" || Strings.Contains(current, "@")
    ensures var r := LookupEmail(current, typed); r == "" || Strings.Contains(r, "@")
    ensures LookupEmail(current, typed) != current ==> Strings.Contains(LookupEmail(current, typed), "@")
  {
  }

  /** The lookup email after the form's email field has shown each text of `typings` in turn,
      starting from the page's initial "". */
  function LookupEmailAfter(typings: seq<string>): (r: string)
    decreases |typings|
  {
    if |typings| == 0 then "" else LookupEmail(LookupEmailAfter(typings[..|typings| - 1]), typings[|typings| - 1])
  }

  /** Whatever is typed, the lookup email is "" or contains '@', and it is always one of the
      texts typed. */
  lemma {:induction false} LookupEmailAfterHasAt(typings: seq<string>)
    ensures var r := LookupEmailAfter(typings); r == "" || Strings.Contains(r, "@")
    ensures var r := LookupEmailAfter(typings); r == "" || r in typings
    decreases |typings|
  {
    if |typings| > 0 {
      var prefix := typings[..|typings| - 1];
      LookupEmailAfterHasAt(prefix);
      LookupEmailKeepsAt(LookupEmailAfter(prefix), typings[|typings| - 1]);
      assert forall x :: x in prefix ==> x in typings;
    }
  }
}

=== FILE: formatters.dfy ===
/** The display helpers for order numbers and long text. */
module Formatters {
  import Strings
  import Storage

  const Ellipsis: char := '\U{2026}'

  /** `formatOrderNumber`: empty stays empty, a number already carrying the "FBO-" prefix
      is kept, anything else gets the prefix. */
  function FormatOrderNumber(orderNumber: string): (r: string)
    ensures r == "" <==> orderNumber == ""
    ensures orderNumber != "" ==> Strings.StartsWith(r, Storage.OrderNumberPrefix)
    ensures Strings.StartsWith(orderNumber, Storage.OrderNumberPrefix) ==> r == orderNumber
    ensures orderNumber != "" && !Strings.StartsWith(orderNumber, Storage.OrderNumberPrefix) ==>
      r[|Storage.OrderNumberPrefix|..] == orderNumber
  {
    if orderNumber == "" then ""
    else if Strings.StartsWith(orderNumber, Storage.OrderNumberPrefix) then orderNumber
    else Storage.OrderNumberPrefix + orderNumber
  }

  /** Formatting twice is formatting once. */
  lemma FormatOrderNumberIdempotent(orderNumber: string)
    ensures FormatOrderNumber(FormatOrderNumber(orderNumber)) == FormatOrderNumber(orderNumber)
  {
  }

  /** Every number the store generates is displayed unchanged. */
  lemma GeneratedNumbersDisplayAsIs(counter: nat)
    ensures FormatOrderNumber(Storage.GenerateOrderNumber(counter)) == Storage.GenerateOrderNumber(counter)
  {
    var n := Storage.GenerateOrderNumber(counter);
    assert n[..|Storage.OrderNumberPrefix|] == Storage.OrderNumberPrefix;
  }

  /** `truncateText`: text within `maxLength` characters is kept; longer text is cut to
      its first `maxLength` characters (none when `maxLength` is negative, as `substring`
      clamps) and an ellipsis appended. */
  function TruncateText(text: string, maxLength: int): (r: string)
    ensures |text| <= maxLength || text == "" ==> r == text
    ensures |text| > maxLength && text != "" ==>
      && |r| == (if maxLength < 0 then 0 else maxLength) + 1
      && r[|r| - 1] == Ellipsis
      && Strings.StartsWith(text, r[..|r| - 1])
  {
    if text == "" || |text| <= maxLength then text
    else Strings.Substring(text, 0, maxLength) + [Ellipsis]
  }

  /** Truncating already truncated text changes nothing. */
  lemma TruncateIdempotent(text: string, maxLength: int)
    ensures TruncateText(TruncateText(text, maxLength), maxLength) == TruncateText(text, maxLength)
  {
    var r := TruncateText(text, maxLength);
    if text != "" && |text| > maxLength {
      var m := if maxLength < 0 then 0 else maxLength;
      assert r[..m] == Strings.Substring(r, 0, maxLength);
      assert r == r[..m] + [Ellipsis];
    }
  }

  /** The text comes back unchanged exactly when it fits, or when it is already what
      truncation would produce: the limit's worth of characters and then an ellipsis. */
  lemma TruncateKeepsIff(text: string, maxLength: int)
    requires text != ""
    ensures TruncateText(text, maxLength) == text <==>
      || |text| <= maxLength
      || (|text| == (if maxLength < 0 then 0 else maxLength) + 1 && text[|text| - 1] == Ellipsis)
  {
    var r := TruncateText(text, maxLength);
    var m := if maxLength < 0 then 0 else maxLength;
    if |text| > maxLength && |text| == m + 1 && text[|text| - 1] == Ellipsis {
      assert text == text[..m] + [Ellipsis];
    }
  }
}

=== FILE: item_modal.dfy ===
/** The add-item dialog: a selected product, a quantity, and the order line it emits. */
module ItemModal {
  import opened Wrappers
  import opened Schema
  import Strings
  import Seqs
  import Cart

  /** The dialog's state: the chosen id text, the quantity, and the product found for it. */
  datatype ModalState = ModalState(selectedProductId: string, quantity: int, selectedProduct: Option<Product>)

  /** Nothing chosen and quantity 1: both the starting state and the state on every opening. */
  function Blank(): ModalState {
    ModalState("", 1, None)
  }

  /** Opening the dialog resets it; closing it leaves the state alone. */
  function OnOpenChange(s: ModalState, open: bool): (r: ModalState)
    ensures open ==> r.quantity == 1 && r.selectedProduct.None? && r.selectedProductId == ""
    ensures !open ==> r == s
  {
    if open then Blank() else s
  }

  /** Choosing a product by its id text: the first listed product whose printed id matches,
      or none. */
  function HandleProductChange(s: ModalState, products: seq<Product>, productId: string): (r: ModalState)
    ensures r.selectedProductId == productId && r.quantity == s.quantity
    ensures r.selectedProduct.Some? ==>
      r.selectedProduct.value in products && Strings.IntToString(r.selectedProduct.value.id) == productId
    ensures r.selectedProduct.None? ==>
      forall i :: 0 <= i < |products| ==> Strings.IntToString(products[i].id) != productId
  {
    s.(selectedProductId := productId,
       selectedProduct := Seqs.Find(products, (p: Product) => Strings.IntToString(p.id) == productId))
  }

  /** A quantity edit is taken only when it parses (base 10) to a positive integer. */
  function HandleQuantityChange(s: ModalState, input: string): (r: ModalState)
    ensures var v := Strings.ParseInt(input, Strings.Radix10);
      && (v.Some? && v.value > 0 ==> r.quantity == v.value)
      && (!(v.Some? && v.value > 0) ==> r.quantity == s.quantity)
    ensures r.selectedProduct == s.selectedProduct && r.selectedProductId == s.selectedProductId
  {
    match Strings.ParseInt(input, Strings.Radix10)
    case Some(v) => if v > 0 then s.(quantity := v) else s
    case None => s
  }

  /** The line the dialog emits, if any: none without a product or with quantity below 1;
      otherwise the product's id, name, unit and price, and total price × quantity. */
  function HandleAddItem(s: ModalState): (r: Option<OrderItem>)
    ensures r.None? <==> s.selectedProduct.None? || s.quantity < 1
    ensures r.Some? ==>
      var p := s.selectedProduct.value;
      && r.value.productId == p.id && r.value.productName == p.name
      && r.value.unit == p.unit && r.value.price == p.price
      && r.value.quantity == s.quantity
      && Cart.LineConsistent(r.value)
  {
    match s.selectedProduct
    case None => None
    case Some(p) =>
      if s.quantity < 1 then None
      else Some(OrderItem(p.id, p.name, p.price, s.quantity, p.unit, p.price * s.quantity))
  }

  /** The quantity never drops below 1. */
  ghost predicate Invariant(s: ModalState) {
    s.quantity >= 1
  }

  /** Every reachable dialog state keeps the quantity at least 1, so with a product chosen
      the dialog always emits a line. */
  lemma TransitionsKeepInvariant(s: ModalState, open: bool, products: seq<Product>, id: string, input: string)
    requires Invariant(s)
    ensures Invariant(Blank())
    ensures Invariant(OnOpenChange(s, open))
    ensures Invariant(HandleProductChange(s, products, id))
    ensures Invariant(HandleQuantityChange(s, input))
    ensures s.selectedProduct.Some? ==> HandleAddItem(s).Some?
  {
  }
}

=== FILE: routes.dfy ===
/** The decisions the HTTP handlers make: which status they answer with, which store
    operation they perform, and which notification they trigger. Authentication middleware
    has already run; the handlers see the caller's role and email. */
module Routes {
  import opened Wrappers
  import opened Schema
  import Strings
  import Storage
  import Tables

  /** The logged-in user as the handlers see it. */
  datatype Caller = Caller(role: string, email: string)

  predicate IsAdmin(c: Caller) {
    c.role == "admin"
  }

  /** The ownership rule: an admin may touch any record, anyone else only records carrying
      their own email. */
  predicate MayAccess(c: Caller, ownerEmail: string) {
    IsAdmin(c) || c.email == ownerEmail
  }

  /** The answer of a handler, with its body when it has one. */
  datatype Reply<T> = Ok(value: T) | Created(value: T) | NoContent | BadRequest | Forbidden | NotFound
  {
    function Code(): (r: nat)
      ensures 200 <= r < 500
      ensures r < 300 <==> Ok? || Created? || NoContent?
    {
      match this
      case Ok(_) => 200
      case Created(_) => 201
      case NoContent => 204
      case BadRequest => 400
      case Forbidden => 403
      case NotFound => 404
    }
  }

  /** A notification handed to the mail service after the response is decided; whether it
      is delivered never changes the response. */
  datatype Email = OrderConfirmation(order: Order) | StatusUpdate(order: Order, status: string)

  /** A handler that may change the store: the store afterwards, the answer, and the
      notifications sent. */
  datatype Handled<T> = Handled(store: Storage.Store, reply: Reply<T>, emails: seq<Email>)

  /** `parseInt(req.params.id)`, with no radix; `None` is NaN. */
  function ParseId(text: string): (r: Option<int>)
    ensures |text| == 0 ==> r.None?
    ensures |text| > 0 && Strings.IsDigit(text[0]) && !Strings.HasHexPrefix(text) ==> r.Some? && r.value >= 0
  {
    Strings.ParseInt(text, Strings.AutoRadix)
  }

  // ---------------------------------------------------------------- products

  /** GET /api/products/:id. */
  function GetProduct(s: Storage.Store, idText: string): (r: Reply<Product>)
    ensures r == BadRequest <==> ParseId(idText).None?
    ensures r == NotFound <==> ParseId(idText).Some? && ParseId(idText).value !in s.products.rows
    ensures r.Ok? <==> ParseId(idText).Some? && ParseId(idText).value in s.products.rows
    ensures r.Ok? ==> r.value == s.products.rows[ParseId(idText).value]
  {
    match ParseId(idText)
    case None => BadRequest
    case Some(id) =>
      match Storage.GetProductById(s, id)
      case None => NotFound
      case Some(p) => Ok(p)
  }

  /** POST /api/products: `body` is the validated payload, `None` when validation fails. */
  function CreateProduct(s: Storage.Store, body: Option<NewProduct>): (r: Handled<Product>)
    requires Storage.Valid(s)
    ensures Storage.Valid(r.store) && r.emails == []
    ensures r.reply.Created? <==> body.Some?
    ensures r.reply.BadRequest? <==> body.None?
    ensures body.None? ==> r.store == s
    ensures r.reply.Created? ==>
      && ProductFields(r.reply.value) == body.value
      && r.reply.value.id !in s.products.rows
      && r.store.products.rows == s.products.rows[r.reply.value.id := r.reply.value]
  {
    match body
    case None => Handled(s, BadRequest, [])
    case Some(p) =>
      var (s', created) := Storage.CreateProduct(s, p);
      Handled(s', Created(created), [])
  }

  /** PUT /api/products/:id: the id is checked before the body. */
  function UpdateProduct(s: Storage.Store, idText: string, body: Option<ProductPatch>): (r: Handled<Product>)
    requires Storage.Valid(s)
    ensures Storage.Valid(r.store) && r.emails == []
    ensures r.reply.BadRequest? <==> ParseId(idText).None? || body.None?
    ensures r.reply.NotFound? <==>
      ParseId(idText).Some? && body.Some? && ParseId(idText).value !in s.products.rows
    ensures !r.reply.Ok? ==> r.store == s
    ensures r.reply.Ok? ==>
      var id := ParseId(idText).value;
      && id in s.products.rows
      && r.reply.value == ApplyPatch(s.products.rows[id], body.value)
      && r.reply.value.id == id
      && r.store.products.rows == s.products.rows[id := r.reply.value]
    ensures r.reply.Ok? || r.reply.BadRequest? || r.reply.NotFound?
  {
    match ParseId(idText)
    case None => Handled(s, BadRequest, [])
    case Some(id) =>
      match body
      case None => Handled(s, BadRequest, [])
      case Some(patch) =>
        var (s', updated) := Storage.UpdateProduct(s, id, patch);
        match updated
        case None => Handled(s', NotFound, [])
        case Some(p) => Handled(s', Ok(p), [])
  }

  /** DELETE /api/products/:id: 204 exactly when the store removed something. */
  function DeleteProduct(s: Storage.Store, idText: string): (r: Handled<()>)
    requires Storage.Valid(s)
    ensures Storage.Valid(r.store) && r.emails == []
    ensures r.reply.BadRequest? <==> ParseId(idText).None?
    ensures r.reply.NoContent? <==> ParseId(idText).Some? && ParseId(idText).value in s.products.rows
    ensures r.reply.NotFound? <==> ParseId(idText).Some? && ParseId(idText).value !in s.products.rows
    ensures ParseId(idText).None? ==> r.store == s
    ensures ParseId(idText).Some? ==>
      r.store.products.rows.Keys == s.products.rows.Keys - {ParseId(idText).value}
  {
    match ParseId(idText)
    case None => Handled(s, BadRequest, [])
    case Some(id) =>
      var (s', deleted) := Storage.DeleteProduct(s, id);
      if deleted then Handled(s', NoContent, []) else Handled(s', NotFound, [])
  }

  // ---------------------------------------------------------------- orders

  /** GET /api/orders/:id: existence is checked before ownership. */
  function GetOrder(s: Storage.Store, caller: Caller, idText: string): (r: Reply<Order>)
    ensures r == BadRequest <==> ParseId(idText).None?
    ensures r == NotFound <==> ParseId(idText).Some? && ParseId(idText).value !in s.orders.rows
    ensures r == Forbidden <==>
      && ParseId(idText).Some? && ParseId(idText).value in s.orders.rows
      && !MayAccess(caller, s.orders.rows[ParseId(idText).value].customerEmail)
    ensures r.Ok? ==>
      && ParseId(idText).Some? && r.value == s.orders.rows[ParseId(idText).value]
      && MayAccess(caller, r.value.customerEmail)
    ensures r.Ok? || r == BadRequest || r == NotFound || r == Forbidden
  {
    match ParseId(idText)
    case None => BadRequest
    case Some(id) =>
      match Storage.GetOrderById(s, id)
      case None => NotFound
      case Some(o) =>
        if !MayAccess(caller, o.customerEmail) then Forbidden else Ok(o)
  }

  /** GET /api/orders/track/:orderNumber: public, by number. */
  function TrackOrder(s: Storage.Store, orderNumber: string): (r: Reply<Order>)
    requires Storage.Valid(s)
    ensures r.Ok? || r == NotFound
    ensures r.Ok? ==> r.value.orderNumber == orderNumber && r.value in s.orders.rows.Values
    ensures r == NotFound <==> forall id :: id in s.orders.rows ==> s.orders.rows[id].orderNumber != orderNumber
    ensures r.Ok? ==>
      exists i :: Storage.FirstNumbered(Tables.Values(s.orders), orderNumber, i) && Tables.Values(s.orders)[i] == r.value
  {
    match Storage.GetOrderByOrderNumber(s, orderNumber)
    case None => NotFound
    case Some(o) => Ok(o)
  }

  /** POST /api/orders: the items are validated on their own first, then the whole body;
      on success the order is stored and a confirmation is sent for it. */
  function PlaceOrder(s: Storage.Store, itemsValid: bool, body: Option<NewOrder>, now: int): (r: Handled<Order>)
    requires Storage.Valid(s)
    ensures Storage.Valid(r.store)
    ensures r.reply.Created? <==> itemsValid && body.Some?
    ensures !r.reply.Created? ==> r.reply.BadRequest? && r.store == s && r.emails == []
    ensures r.reply.Created? ==>
      var o := r.reply.value;
      && o.id !in s.orders.rows
      && r.store.orders.rows == s.orders.rows[o.id := o]
      && o.status == Storage.InitialStatus(body.value.status)
      && o.id == s.nextOrderId && o.orderNumber == Storage.GenerateOrderNumber(s.nextOrderId + 1)
      && o.createdAt == now
      && o.customerName == body.value.customerName && o.customerEmail == body.value.customerEmail
      && o.customerPhone == body.value.customerPhone && o.deliveryAddress == body.value.deliveryAddress
      && o.deliveryCity == body.value.deliveryCity && o.deliveryPincode == body.value.deliveryPincode
      && o.notes == body.value.notes && o.totalAmount == body.value.totalAmount
      && o.items == body.value.items
      && r.emails == [OrderConfirmation(o)]
  {
    if !itemsValid then Handled(s, BadRequest, [])
    else
      match body
      case None => Handled(s, BadRequest, [])
      case Some(payload) =>
        var (s', o) := Storage.CreateOrder(s, payload, now);
        Handled(s', Created(o), [OrderConfirmation(o)])
  }

  /** PATCH /api/orders/:id/status: any string is accepted as the status; the status email
      goes out only for an order that was updated, and carries that order. */
  function UpdateStatus(s: Storage.Store, idText: string, body: Option<string>): (r: Handled<Order>)
    requires Storage.Valid(s)
    ensures Storage.Valid(r.store)
    ensures r.reply.BadRequest? <==> ParseId(idText).None? || body.None?
    ensures r.reply.NotFound? <==>
      ParseId(idText).Some? && body.Some? && ParseId(idText).value !in s.orders.rows
    ensures r.reply.Ok? || r.reply.BadRequest? || r.reply.NotFound?
    ensures !r.reply.Ok? ==> r.store == s && r.emails == []
    ensures r.reply.Ok? ==>
      var id := ParseId(idText).value;
      && id in s.orders.rows
      && r.reply.value == s.orders.rows[id].(status := body.value)
      && r.store.orders.rows == s.orders.rows[id := r.reply.value]
      && r.emails == [StatusUpdate(r.reply.value, body.value)]
  {
    match ParseId(idText)
    case None => Handled(s, BadRequest, [])
    case Some(id) =>
      match body
      case None => Handled(s, BadRequest, [])
      case Some(status) =>
        var (s', updated) := Storage.UpdateOrderStatus(s, id, status);
        match updated
        case None => Handled(s', NotFound, [])
        case Some(o) => Handled(s', Ok(o), [StatusUpdate(o, status)])
  }

  // ---------------------------------------------------------------- addresses

  /** The address-store operation a handler performs once it has decided to. */
  datatype AddressCall =
    | ListByEmail(email: string)
    | ListAll
    | CreateAddress(address: NewAddress)
    | UpdateAddress(id: int)
    | DeleteAddress(id: int)
    | SetDefaultAddress(id: int)

  /** An address handler's status code and the store operation it performs, if any. */
  datatype AddressOutcome = AddressOutcome(code: nat, call: Option<AddressCall>)

  /** GET /api/addresses: with an email, the admin or that email's owner; without one, admins
      only. `email` is "" when the query parameter is absent. */
  function ListAddresses(caller: Caller, email: string): (r: AddressOutcome)
    ensures r.code == 200 || r.code == 403
    ensures r.code == 200 <==> r.call.Some?
    ensures r.code == 200 <==> (if email != "" then MayAccess(caller, email) else IsAdmin(caller))
    ensures r.call.Some? ==> r.call.value == (if email != "" then ListByEmail(email) else ListAll)
  {
    if email != "" then
      if !MayAccess(caller, email) then AddressOutcome(403, None)
      else AddressOutcome(200, Some(ListByEmail(email)))
    else if !IsAdmin(caller) then AddressOutcome(403, None)
    else AddressOutcome(200, Some(ListAll))
  }

  /** The checks the handlers on one address make, in order: a numeric id (400), an existing
      address (404), the ownership rule (403). `lookup` is the store's `getAddressById`. */
  datatype Guarded = Rejected(code: nat) | Allowed(id: int, address: Address)

  function GuardAddress(caller: Caller, idText: string, lookup: int -> Option<Address>): (r: Guarded)
    ensures r == Rejected(400) <==> ParseId(idText).None?
    ensures r == Rejected(404) <==> ParseId(idText).Some? && lookup(ParseId(idText).value).None?
    ensures r == Rejected(403) <==>
      && ParseId(idText).Some? && lookup(ParseId(idText).value).Some?
      && !MayAccess(caller, lookup(ParseId(idText).value).value.customerEmail)
    ensures r.Rejected? ==> r.code in {400, 403, 404}
    ensures r.Allowed? ==>
      && ParseId(idText) == Some(r.id)
      && lookup(r.id) == Some(r.address)
      && MayAccess(caller, r.address.customerEmail)
  {
    match ParseId(idText)
    case None => Rejected(400)
    case Some(id) =>
      match lookup(id)
      case None => Rejected(404)
      case Some(a) =>
        if !MayAccess(caller, a.customerEmail) then Rejected(403) else Allowed(id, a)
  }

  /** GET /api/addresses/:id. */
  function GetAddress(caller: Caller, idText: string, lookup: int -> Option<Address>): (r: Reply<Address>)
    ensures r == BadRequest <==> ParseId(idText).None?
    ensures r == NotFound <==> ParseId(idText).Some? && lookup(ParseId(idText).value).None?
    ensures r.Ok? <==> GuardAddress(caller, idText, lookup).Allowed?
    ensures r.Ok? ==> MayAccess(caller, r.value.customerEmail) && lookup(ParseId(idText).value) == Some(r.value)
    ensures r.Ok? || r == BadRequest || r == NotFound || r == Forbidden
  {
    match GuardAddress(caller, idText, lookup)
    case Rejected(code) => if code == 400 then BadRequest else if code == 404 then NotFound else Forbidden
    case Allowed(_, a) => Ok(a)
  }

  /** POST /api/addresses: the body is validated first, then the caller must own the email
      the address is saved under. */
  function CreateAddressRoute(caller: Caller, body: Option<NewAddress>): (r: AddressOutcome)
    ensures r.code in {201, 400, 403}
    ensures r.code == 400 <==> body.None?
    ensures r.code == 201 <==> body.Some? && MayAccess(caller, body.value.customerEmail)
    ensures r.call.Some? <==> r.code == 201
    ensures r.call.Some? ==> r.call.value == CreateAddress(body.value)
  {
    match body
    case None => AddressOutcome(400, None)
    case Some(a) =>
      if !MayAccess(caller, a.customerEmail) then AddressOutcome(403, None)
      else AddressOutcome(201, Some(CreateAddress(a)))
  }

  /** PUT /api/addresses/:id: the body is validated only after the ownership check. */
  function UpdateAddressRoute(caller: Caller, idText: string, lookup: int -> Option<Address>, bodyValid: bool)
    : (r: AddressOutcome)
    ensures r.call.Some? <==> r.code == 200
    ensures r.code == 200 <==> GuardAddress(caller, idText, lookup).Allowed? && bodyValid
    ensures GuardAddress(caller, idText, lookup).Rejected? ==> r.code == GuardAddress(caller, idText, lookup).code
    ensures GuardAddress(caller, idText, lookup).Allowed? && !bodyValid ==> r.code == 400
    ensures r.call.Some? ==> r.call.value == UpdateAddress(GuardAddress(caller, idText, lookup).id)
  {
    match GuardAddress(caller, idText, lookup)
    case Rejected(code) => AddressOutcome(code, None)
    case Allowed(id, _) =>
      if !bodyValid then AddressOutcome(400, None)
      else AddressOutcome(200, Some(UpdateAddress(id)))
  }

  /** DELETE /api/addresses/:id: 204 once the checks pass, whatever the store answers. */
  function DeleteAddressRoute(caller: Caller, idText: string, lookup: int -> Option<Address>): (r: AddressOutcome)
    ensures r.call.Some? <==> r.code == 204
    ensures r.code == 204 <==> GuardAddress(caller, idText, lookup).Allowed?
    ensures GuardAddress(caller, idText, lookup).Rejected? ==> r.code == GuardAddress(caller, idText, lookup).code
    ensures r.call.Some? ==> r.call.value == DeleteAddress(GuardAddress(caller, idText, lookup).id)
  {
    match GuardAddress(caller, idText, lookup)
    case Rejected(code) => AddressOutcome(code, None)
    case Allowed(id, _) => AddressOutcome(204, Some(DeleteAddress(id)))
  }

  /** PATCH /api/addresses/:id/set-default: 200 with the re-read address once the checks pass. */
  function SetDefaultRoute(caller: Caller, idText: string, lookup: int -> Option<Address>): (r: AddressOutcome)
    ensures r.call.Some? <==> r.code == 200
    ensures r.code == 200 <==> GuardAddress(caller, idText, lookup).Allowed?
    ensures GuardAddress(caller, idText, lookup).Rejected? ==> r.code == GuardAddress(caller, idText, lookup).code
    ensures r.call.Some? ==> r.call.value == SetDefaultAddress(GuardAddress(caller, idText, lookup).id)
  {
    match GuardAddress(caller, idText, lookup)
    case Rejected(code) => AddressOutcome(code, None)
    case Allowed(id, _) => AddressOutcome(200, Some(SetDefaultAddress(id)))
  }

  // ---------------------------------------------------------------- properties

  /** A non-admin never reads, changes or removes an address saved under another email. */
  lemma StrangersCannotTouchAddresses(caller: Caller, idText: string, lookup: int -> Option<Address>, bodyValid: bool)
    requires !IsAdmin(caller)
    requires ParseId(idText).Some? && lookup(ParseId(idText).value).Some?
    requires lookup(ParseId(idText).value).value.customerEmail != caller.email
    ensures GetAddress(caller, idText, lookup) == Forbidden
    ensures UpdateAddressRoute(caller, idText, lookup, bodyValid) == AddressOutcome(403, None)
    ensures DeleteAddressRoute(caller, idText, lookup) == AddressOutcome(403, None)
    ensures SetDefaultRoute(caller, idText, lookup) == AddressOutcome(403, None)
  {
  }

  /** A non-admin sees an order exactly when it was placed under their email. */
  lemma OrderVisibleIff(s: Storage.Store, caller: Caller, id: int)
    requires !IsAdmin(caller) && id in s.orders.rows
    ensures GetOrder(s, caller, Strings.IntToString(id)).Ok? <==> s.orders.rows[id].customerEmail == caller.email
  {
    Strings.ParseIntToString(id, Strings.AutoRadix);
  }

  /** A product just created can be fetched by its id. */
  lemma CreatedProductCanBeFetched(s: Storage.Store, p: NewProduct)
    requires Storage.Valid(s)
    ensures var r := CreateProduct(s, Some(p));
      GetProduct(r.store, Strings.IntToString(r.reply.value.id)) == Ok(r.reply.value)
  {
    var r := CreateProduct(s, Some(p));
    Strings.ParseIntToString(r.reply.value.id, Strings.AutoRadix);
  }

  /** After a successful delete, fetching the same id answers 404, and deleting it again too. */
  lemma DeletedProductIsGone(s: Storage.Store, idText: string)
    requires Storage.Valid(s)
    requires DeleteProduct(s, idText).reply.NoContent?
    ensures GetProduct(DeleteProduct(s, idText).store, idText) == NotFound
    ensures DeleteProduct(DeleteProduct(s, idText).store, idText).reply == NotFound
  {
  }

  /** With orders 1 and 10001 both stored, the tracking route answers order 10001's number
      with order 1: the later order cannot be tracked by its number. */
  lemma WrappedTrackingAnswersFirst(s: Storage.Store)
    requires Storage.Valid(s)
    requires 1 in s.orders.rows && 10001 in s.orders.rows
    ensures TrackOrder(s, s.orders.rows[10001].orderNumber) == Ok(s.orders.rows[1])
    ensures s.orders.rows[1] != s.orders.rows[10001]
  {
    Storage.WrappedTrackingFindsFirst(s);
  }

  /** A placed order can be tracked by the number in the response, up to and including
      order 10000. */
  lemma PlacedOrderCanBeTracked(s: Storage.Store, body: NewOrder, now: int)
    requires Storage.Valid(s) && s.nextOrderId <= 10000
    ensures var r := PlaceOrder(s, true, Some(body), now);
      TrackOrder(r.store, r.reply.value.orderNumber) == Ok(r.reply.value)
  {
    var r := PlaceOrder(s, true, Some(body), now);
    Storage.TrackingFindsTheOrder(r.store, r.reply.value.id);
  }

  /** A status update is visible to tracking, and the email sent carries the same order the
      response does. */
  lemma StatusUpdateIsTracked(s: Storage.Store, idText: string, status: string)
    requires Storage.Valid(s) && s.nextOrderId <= 10001
    requires UpdateStatus(s, idText, Some(status)).reply.Ok?
    ensures var r := UpdateStatus(s, idText, Some(status));
      && TrackOrder(r.store, r.reply.value.orderNumber) == Ok(r.reply.value)
      && r.reply.value.status == status
      && r.emails[0].order == r.reply.value
  {
    var r := UpdateStatus(s, idText, Some(status));
    Storage.TrackingFindsTheOrder(r.store, ParseId(idText).value);
  }
}

=== FILE: schema.dfy ===
/** The shared record shapes of the storefront: products, orders, embedded order items,
    saved addresses, and the two fixed enumerations. */
module Schema {
  import opened Wrappers

  // ---------------------------------------------------------------- enumerations

  /** The statuses the application names. Stored orders keep their status as free text. */
  datatype OrderStatus = Pending | InProgress | Delivered

  function StatusLabel(s: OrderStatus): string {
    match s
    case Pending => "Pending"
    case InProgress => "In Progress"
    case Delivered => "Delivered"
  }

  /** Recognises the text of a named status; any other text is a status the enumeration
      does not name. */
  function ParseStatus(text: string): (r: Option<OrderStatus>)
    ensures r.Some? ==> StatusLabel(r.value) == text
    ensures r.None? ==> forall s: OrderStatus :: StatusLabel(s) != text
  {
    if text == "Pending" then Some(Pending)
    else if text == "In Progress" then Some(InProgress)
    else if text == "Delivered" then Some(Delivered)
    else None
  }

  /** Every status reads back as itself, so the three labels are distinct. */
  lemma StatusRoundTrip(s: OrderStatus)
    ensures ParseStatus(StatusLabel(s)) == Some(s)
  {
  }

  /** The enumeration has exactly the three labels "Pending", "In Progress" and "Delivered". */
  lemma StatusLabels()
    ensures (set s: OrderStatus | true :: StatusLabel(s)) == {"Pending", "In Progress", "Delivered"}
  {
    var labels := set s: OrderStatus | true :: StatusLabel(s);
    assert StatusLabel(Pending) in labels;
    assert StatusLabel(InProgress) in labels;
    assert StatusLabel(Delivered) in labels;
  }

  datatype ProductCategory = Vegetables | Fruits | LeafyGreens

  function CategoryLabel(c: ProductCategory): string {
    match c
    case Vegetables => "Vegetables"
    case Fruits => "Fruits"
    case LeafyGreens => "Leafy Greens"
  }

  function ParseCategory(text: string): (r: Option<ProductCategory>)
    ensures r.Some? ==> CategoryLabel(r.value) == text
    ensures r.None? ==> forall c: ProductCategory :: CategoryLabel(c) != text
  {
    if text == "Vegetables" then Some(Vegetables)
    else if text == "Fruits" then Some(Fruits)
    else if text == "Leafy Greens" then Some(LeafyGreens)
    else None
  }

  lemma CategoryRoundTrip(c: ProductCategory)
    ensures ParseCategory(CategoryLabel(c)) == Some(c)
  {
  }

  lemma CategoryLabels()
    ensures (set c: ProductCategory | true :: CategoryLabel(c)) == {"Vegetables", "Fruits", "Leafy Greens"}
  {
    var labels := set c: ProductCategory | true :: CategoryLabel(c);
    assert CategoryLabel(Vegetables) in labels;
    assert CategoryLabel(Fruits) in labels;
    assert CategoryLabel(LeafyGreens) in labels;
  }

  // ---------------------------------------------------------------- records

  /** A line of an order: exactly these six fields. Prices and totals are whole amounts of
      the smallest currency unit. */
  datatype OrderItem = OrderItem(
    productId: int,
    productName: string,
    price: int,
    quantity: int,
    unit: string,
    total: int)

  /** A stored product; `category` is free text in storage. */
  datatype Product = Product(
    id: int,
    name: string,
    category: string,
    price: int,
    unit: string,
    description: Option<string>,
    imageUrl: Option<string>)

  /** The payload for creating a product: every product field except `id`. */
  datatype NewProduct = NewProduct(
    name: string,
    category: string,
    price: int,
    unit: string,
    description: Option<string>,
    imageUrl: Option<string>)

  /** A partial product payload: `None` means the field was not supplied. */
  datatype ProductPatch = ProductPatch(
    name: Option<string>,
    category: Option<string>,
    price: Option<int>,
    unit: Option<string>,
    description: Option<Option<string>>,
    imageUrl: Option<Option<string>>)

  /** A stored order. `status` is free text; `createdAt` is a clock reading. */
  datatype Order = Order(
    id: int,
    orderNumber: string,
    customerName: string,
    customerEmail: string,
    customerPhone: string,
    deliveryAddress: string,
    deliveryCity: string,
    deliveryPincode: string,
    status: string,
    notes: Option<string>,
    totalAmount: int,
    createdAt: int,
    items: seq<OrderItem>)

  /** The payload for creating an order: no `id`, `orderNumber` or `createdAt`; the status
      may be left out. */
  datatype NewOrder = NewOrder(
    customerName: string,
    customerEmail: string,
    customerPhone: string,
    deliveryAddress: string,
    deliveryCity: string,
    deliveryPincode: string,
    status: Option<string>,
    notes: Option<string>,
    totalAmount: int,
    items: seq<OrderItem>)

  /** A saved delivery address, owned by the email it is filed under. */
  datatype Address = Address(
    id: int,
    customerEmail: string,
    customerName: string,
    customerPhone: string,
    addressLine: string,
    city: string,
    pincode: string,
    isDefault: bool)

  /** The payload for creating an address (no `id`). */
  datatype NewAddress = NewAddress(
    customerEmail: string,
    customerName: string,
    customerPhone: string,
    addressLine: string,
    city: string,
    pincode: string,
    isDefault: bool)

  // ---------------------------------------------------------------- insert payloads

  /** The record a product payload becomes once the store assigns `id`. */
  function ProductWithId(p: NewProduct, id: int): Product {
    Product(id, p.name, p.category, p.price, p.unit, p.description, p.imageUrl)
  }

  /** The payload part of a stored product. */
  function ProductFields(p: Product): NewProduct {
    NewProduct(p.name, p.category, p.price, p.unit, p.description, p.imageUrl)
  }

  /** A product is exactly its payload plus the store-assigned id. */
  lemma ProductPayloadRoundTrip(p: NewProduct, id: int)
    ensures ProductFields(ProductWithId(p, id)) == p
    ensures ProductWithId(ProductFields(ProductWithId(p, id)), id) == ProductWithId(p, id)
  {
  }

  /** `{ ...existing, ...patch }`: supplied fields win, the rest (and `id`) are kept. */
  function ApplyPatch(p: Product, patch: ProductPatch): (r: Product)
    ensures r.id == p.id
    ensures patch.name.Some? ==> r.name == patch.name.value
    ensures patch.name.None? ==> r.name == p.name
    ensures patch.category.Some? ==> r.category == patch.category.value
    ensures patch.category.None? ==> r.category == p.category
    ensures patch.price.Some? ==> r.price == patch.price.value
    ensures patch.price.None? ==> r.price == p.price
    ensures patch.unit.Some? ==> r.unit == patch.unit.value
    ensures patch.unit.None? ==> r.unit == p.unit
    ensures patch.description.Some? ==> r.description == patch.description.value
    ensures patch.description.None? ==> r.description == p.description
    ensures patch.imageUrl.Some? ==> r.imageUrl == patch.imageUrl.value
    ensures patch.imageUrl.None? ==> r.imageUrl == p.imageUrl
  {
    Product(
      p.id,
      patch.name.GetOr(p.name),
      patch.category.GetOr(p.category),
      patch.price.GetOr(p.price),
      patch.unit.GetOr(p.unit),
      patch.description.GetOr(p.description),
      patch.imageUrl.GetOr(p.imageUrl))
  }

  /** An empty patch changes nothing, and patching with a product's own fields is a no-op. */
  lemma ApplyPatchNeutral(p: Product)
    ensures ApplyPatch(p, ProductPatch(None, None, None, None, None, None)) == p
    ensures ApplyPatch(p, ProductPatch(Some(p.name), Some(p.category), Some(p.price),
                                       Some(p.unit), Some(p.description), Some(p.imageUrl))) == p
  {
  }

  /** Patching twice with the same patch is the same as patching once. */
  lemma ApplyPatchIdempotent(p: Product, patch: ProductPatch)
    ensures ApplyPatch(ApplyPatch(p, patch), patch) == ApplyPatch(p, patch)
  {
  }
}

=== FILE: seqs.dfy ===
/** Generic sequence operations the storefront gets from `Array.prototype`:
    `filter`, `findIndex`, `find` and subsequence reasoning about them. */
module Seqs {
  import opened Wrappers

  /** `Array.prototype.filter`: the elements satisfying `p`, in their original order. */
  function Filter<T(==)>(s: seq<T>, p: T -> bool): (r: seq<T>)
    ensures |r| <= |s|
    ensures forall i :: 0 <= i < |r| ==> r[i] in s && p(r[i])
    ensures forall i :: 0 <= i < |s| && p(s[i]) ==> s[i] in r
    decreases |s|
  {
    if |s| == 0 then []
    else (if p(s[0]) then [s[0]] else []) + Filter(s[1..], p)
  }

  /** `filter` keeps every passing element as often as it occurs, and adds nothing. */
  lemma FilterKeepsMultiplicity<T>(s: seq<T>, p: T -> bool)
    ensures multiset(Filter(s, p)) <= multiset(s)
    ensures forall i :: 0 <= i < |s| && p(s[i]) ==> multiset(Filter(s, p))[s[i]] == multiset(s)[s[i]]
  {
    forall x
      ensures multiset(Filter(s, p))[x] <= multiset(s)[x]
    {
      FilterCount(s, p, x);
    }
    forall i | 0 <= i < |s| && p(s[i])
      ensures multiset(Filter(s, p))[s[i]] == multiset(s)[s[i]]
    {
      FilterCount(s, p, s[i]);
    }
  }

  /** How often `filter` keeps `x`: as often as it occurs when it passes, never otherwise. */
  lemma {:induction false} FilterCount<T>(s: seq<T>, p: T -> bool, x: T)
    ensures multiset(Filter(s, p))[x] == if p(x) then multiset(s)[x] else 0
    decreases |s|
  {
    if |s| > 0 {
      FilterCount(s[1..], p, x);
      var head: seq<T> := if p(s[0]) then [s[0]] else [];
      assert Filter(s, p) == head + Filter(s[1..], p);
      assert s == [s[0]] + s[1..];
    }
  }

  /** `a` can be obtained from `b` by deleting elements, keeping the order of the rest. */
  predicate IsSubsequence<T(==)>(a: seq<T>, b: seq<T>)
    decreases |b|
  {
    || |a| == 0
    || (&& |b| > 0
        && ((a[0] == b[0] && IsSubsequence(a[1..], b[1..])) || IsSubsequence(a, b[1..])))
  }

  /** A filtered sequence keeps the survivors in their original order. */
  lemma {:induction false} FilterIsSubsequence<T>(s: seq<T>, p: T -> bool)
    ensures IsSubsequence(Filter(s, p), s)
    decreases |s|
  {
    if |s| > 0 {
      FilterIsSubsequence(s[1..], p);
      if p(s[0]) {
        assert Filter(s, p) == [s[0]] + Filter(s[1..], p);
        assert Filter(s, p)[1..] == Filter(s[1..], p);
      } else {
        assert Filter(s, p) == Filter(s[1..], p);
      }
    }
  }

  /** A predicate that holds everywhere filters nothing out. */
  lemma {:induction false} FilterKeepsAll<T>(s: seq<T>, p: T -> bool)
    requires forall i :: 0 <= i < |s| ==> p(s[i])
    ensures Filter(s, p) == s
    decreases |s|
  {
    if |s| > 0 {
      FilterKeepsAll(s[1..], p);
    }
  }

  /** `Array.prototype.findIndex`: the first index whose element satisfies `p`, or -1. */
  function FindIndex<T>(s: seq<T>, p: T -> bool): (r: int)
    ensures -1 <= r < |s|
    ensures r == -1 <==> forall i :: 0 <= i < |s| ==> !p(s[i])
    ensures r >= 0 ==> p(s[r]) && forall i :: 0 <= i < r ==> !p(s[i])
    decreases |s|
  {
    if |s| == 0 then -1
    else if p(s[0]) then 0
    else
      var k := FindIndex(s[1..], p);
      if k == -1 then -1 else k + 1
  }

  /** `Array.prototype.find`: the first element satisfying `p`, if any. */
  function Find<T>(s: seq<T>, p: T -> bool): (r: Option<T>)
    ensures r.None? <==> forall i :: 0 <= i < |s| ==> !p(s[i])
    ensures r.Some? ==> exists i :: 0 <= i < |s| && s[i] == r.value && p(s[i]) &&
                                    forall j :: 0 <= j < i ==> !p(s[j])
  {
    var k := FindIndex(s, p);
    if k == -1 then None else Some(s[k])
  }
}

=== FILE: sorting.dfy ===
/** A stable sort of products under a comparison given as "may come before" (`leq`):
    `Array.prototype.sort` with a comparator, where `cmp(a, b) <= 0` reads `leq(a, b)`. */
module Sorting {
  import opened Schema

  /** Any two products are comparable one way or the other. */
  ghost predicate Total(leq: (Product, Product) -> bool) {
    forall a, b :: leq(a, b) || leq(b, a)
  }

  /** Adjacent products are in `leq` order. */
  ghost predicate SortedBy(s: seq<Product>, leq: (Product, Product) -> bool) {
    forall i :: 0 <= i < |s| - 1 ==> leq(s[i], s[i + 1])
  }

  /** Puts `x` in front of the first element it may precede. */
  function Insert(x: Product, s: seq<Product>, leq: (Product, Product) -> bool): (r: seq<Product>)
    requires Total(leq)
    ensures |r| == |s| + 1
    ensures multiset(r) == multiset(s) + multiset{x}
    ensures r[0] == x || (|s| > 0 && r[0] == s[0])
    ensures SortedBy(s, leq) ==> SortedBy(r, leq)
    decreases |s|
  {
    if |s| == 0 || leq(x, s[0]) then [x] + s
    else
      var rest := Insert(x, s[1..], leq);
      assert s == [s[0]] + s[1..];
      [s[0]] + rest
  }

  /** Insertion sort, from the back: each element goes in front of the first element of the
      already sorted rest that it may precede. */
  function SortBy(s: seq<Product>, leq: (Product, Product) -> bool): (r: seq<Product>)
    requires Total(leq)
    ensures |r| == |s|
    ensures multiset(r) == multiset(s)
    ensures SortedBy(r, leq)
    decreases |s|
  {
    if |s| == 0 then []
    else
      assert s == [s[0]] + s[1..];
      Insert(s[0], SortBy(s[1..], leq), leq)
  }

  /** A comparator that calls everything equal leaves the order unchanged. */
  lemma {:induction false} SortByAllEqual(s: seq<Product>, leq: (Product, Product) -> bool)
    requires forall a, b :: leq(a, b)
    ensures SortBy(s, leq) == s
    decreases |s|
  {
    if |s| > 0 {
      SortByAllEqual(s[1..], leq);
      assert s == [s[0]] + s[1..];
    }
  }
}

=== FILE: storage.dfy ===
/** The in-memory entity store: products and orders in insertion-ordered tables, plus the
    two id counters. Each operation returns the next store instead of mutating one. */
module Storage {
  import opened Wrappers
  import opened Schema
  import Tables
  import Strings
  import Seqs

  const OrderNumberPrefix: string := "FBO-"

  datatype Store = Store(
    products: Tables.Table<Product>,
    orders: Tables.Table<Order>,
    nextProductId: nat,
    nextOrderId: nat)

  // ---------------------------------------------------------------- order numbers

  /** The order number generated while the order counter reads `counter`: the prefix, then
      the decimal form of `10000 + counter` without its first character. */
  function GenerateOrderNumber(counter: nat): (r: string)
    ensures |r| >= |OrderNumberPrefix| && r[..|OrderNumberPrefix|] == OrderNumberPrefix
  {
    var digits := Strings.NatToString(10000 + counter);
    OrderNumberPrefix + Strings.Substring(digits, 1, |digits|)
  }

  /** Four-digit zero-padded decimal form of `n`. */
  function Pad4(n: nat): (r: string)
    requires n <= 9999
    ensures |r| == 4
  {
    var q1 := n / 10;
    var q2 := q1 / 10;
    [Strings.DigitChar(q2 / 10), Strings.DigitChar(q2 % 10),
     Strings.DigitChar(q1 % 10), Strings.DigitChar(n % 10)]
  }

  /** The four digits of `Pad4(n)` rebuild `n`, so `Pad4` is injective. */
  lemma Pad4Injective(a: nat, b: nat)
    requires a <= 9999 && b <= 9999
    requires Pad4(a) == Pad4(b)
    ensures a == b
  {
    var a1, b1 := a / 10, b / 10;
    var a2, b2 := a1 / 10, b1 / 10;
    Pad4Digits(a);
    Pad4Digits(b);
    Strings.DigitCharValue(a2 / 10);
    Strings.DigitCharValue(a2 % 10);
    Strings.DigitCharValue(a1 % 10);
    Strings.DigitCharValue(a % 10);
    Strings.DigitCharValue(b2 / 10);
    Strings.DigitCharValue(b2 % 10);
    Strings.DigitCharValue(b1 % 10);
    Strings.DigitCharValue(b % 10);
    assert Pad4(a)[0] == Pad4(b)[0] && Pad4(a)[1] == Pad4(b)[1];
    assert Pad4(a)[2] == Pad4(b)[2] && Pad4(a)[3] == Pad4(b)[3];
  }

  /** Printing `10k + d` appends the digit `d` to the printing of `k`. */
  lemma NatToStringStep(k: nat, d: nat)
    requires k >= 1 && d < 10
    ensures Strings.NatToString(k * 10 + d) == Strings.NatToString(k) + [Strings.DigitChar(d)]
  {
    assert (k * 10 + d) / 10 == k && (k * 10 + d) % 10 == d;
  }

  /** The digits `Pad4` shows, recombined, give `n` back. */
  lemma Pad4Digits(n: nat)
    requires n <= 9999
    ensures var q1 := n / 10; var q2 := q1 / 10;
      && q2 / 10 < 10
      && n == ((q2 / 10 * 10 + q2 % 10) * 10 + q1 % 10) * 10 + n % 10
  {
    var q1 := n / 10;
    var q2 := q1 / 10;
    assert n == q1 * 10 + n % 10;
    assert q1 == q2 * 10 + q1 % 10;
    assert q2 == q2 / 10 * 10 + q2 % 10;
  }

  /** A five-digit number with leading digit `h` prints as `h` followed by `Pad4` of the rest. */
  lemma FiveDigits(h: nat, n: nat)
    requires 1 <= h <= 9 && n <= 9999
    ensures Strings.NatToString(h * 10000 + n) == [Strings.DigitChar(h)] + Pad4(n)
  {
    var q1 := n / 10;
    var q2 := q1 / 10;
    var a, b, c, d := q2 / 10, q2 % 10, q1 % 10, n % 10;
    Pad4Digits(n);
    var k1 := h * 10 + a;
    var k2 := k1 * 10 + b;
    var k3 := k2 * 10 + c;
    assert h * 10000 + n == k3 * 10 + d;
    var H, A, B, C, D := Strings.DigitChar(h), Strings.DigitChar(a), Strings.DigitChar(b),
      Strings.DigitChar(c), Strings.DigitChar(d);
    assert Strings.NatToString(h) == [H];
    NatToStringStep(h, a);
    assert Strings.NatToString(k1) == [H, A];
    NatToStringStep(k1, b);
    assert Strings.NatToString(k2) == [H, A, B];
    NatToStringStep(k2, c);
    assert Strings.NatToString(k3) == [H, A, B, C];
    NatToStringStep(k3, d);
    var digits := Strings.NatToString(k3 * 10 + d);
    assert digits == [H, A, B, C, D];
    assert Pad4(n) == [A, B, C, D];
    assert [H] + Pad4(n) == digits;
  }

  /** For a counter up to 9999 the number is the prefix and the counter zero-padded to four
      digits. */
  lemma OrderNumberIsPadded(counter: nat)
    requires counter <= 9999
    ensures GenerateOrderNumber(counter) == OrderNumberPrefix + Pad4(counter)
  {
    FiveDigits(1, counter);
  }

  /** Below 90000 only the counter's last four digits survive the dropped first character. */
  lemma OrderNumberKeepsLastFourDigits(counter: nat)
    requires counter < 90000
    ensures GenerateOrderNumber(counter) == OrderNumberPrefix + Pad4(counter % 10000)
  {
    var q, m := counter / 10000, counter % 10000;
    assert counter == q * 10000 + m;
    var h := q + 1;
    assert 10000 + counter == h * 10000 + m;
    FiveDigits(h, m);
    DropLeadingDigit(Strings.NatToString(10000 + counter), Strings.DigitChar(h), m);
  }

  lemma DropLeadingDigit(digits: string, lead: char, m: nat)
    requires m <= 9999 && digits == [lead] + Pad4(m)
    ensures Strings.Substring(digits, 1, |digits|) == Pad4(m)
  {
    assert digits[1..] == Pad4(m);
  }

  lemma AppendCancel(p: string, x: string, y: string)
    requires p + x == p + y
    ensures x == y
  {
    assert x == (p + x)[|p|..];
    assert y == (p + y)[|p|..];
  }

  /** Distinct counters up to 9999 generate distinct order numbers. */
  lemma OrderNumberInjective(a: nat, b: nat)
    requires a <= 9999 && b <= 9999
    requires GenerateOrderNumber(a) == GenerateOrderNumber(b)
    ensures a == b
  {
    OrderNumberIsPadded(a);
    OrderNumberIsPadded(b);
    AppendCancel(OrderNumberPrefix, Pad4(a), Pad4(b));
    Pad4Injective(a, b);
  }

  /** Past 9999 the numbers wrap: counters `c` and `c + 10000` collide (for `c < 80000`). */
  lemma OrderNumberCollides(c: nat)
    requires c < 80000
    ensures GenerateOrderNumber(c) == GenerateOrderNumber(c + 10000)
  {
    OrderNumberKeepsLastFourDigits(c);
    OrderNumberKeepsLastFourDigits(c + 10000);
    assert (c + 10000) % 10000 == c % 10000;
  }

  /** The concrete collision: counters 2 and 10002 both give "FBO-0002". */
  lemma OrderNumberCollisionExample()
    ensures GenerateOrderNumber(2) == GenerateOrderNumber(10002) == "FBO-0002"
  {
    OrderNumberCollides(2);
    OrderNumberIsPadded(2);
  }

  // ---------------------------------------------------------------- invariant

  /** Every stored record carries its own key as id, ids are below the counters, every
      order's number is the one generated for it (from the counter after its increment), and
      orders are listed by increasing id. */
  ghost predicate Valid(s: Store) {
    && Tables.Valid(s.products)
    && Tables.Valid(s.orders)
    && 1 <= s.nextProductId
    && 1 <= s.nextOrderId
    && (forall id :: id in s.products.rows ==> 1 <= id < s.nextProductId && s.products.rows[id].id == id)
    && (forall id :: id in s.orders.rows ==>
          && 1 <= id < s.nextOrderId
          && s.orders.rows[id].id == id
          && s.orders.rows[id].orderNumber == GenerateOrderNumber(id + 1))
    && Ascending(s.orders.order)
  }

  /** Orders are never deleted and each new one takes a larger id, so the order table lists
      its ids in increasing order. */
  ghost predicate Ascending(keys: seq<int>) {
    forall i, j :: 0 <= i < j < |keys| ==> keys[i] < keys[j]
  }

  // ---------------------------------------------------------------- construction

  function EmptyStore(): (s: Store)
    ensures Valid(s)
  {
    Store(Tables.Empty(), Tables.Empty(), 1, 1)
  }

  const TomatoesDescription: string := "Fresh, ripe tomatoes perfect for sauces and salads."
  const TomatoesImage: string :=
    "https://images.unsplash.com/photo-1592924357229-86f5e9152a9e?ixlib=rb-1.2.1&auto=format&fit=crop&w=300&h=200&q=80"
  const ApplesDescription: string := "Sweet and crunchy apples, perfect for snacking or baking."
  const ApplesImage: string :=
    "https://images.unsplash.com/photo-1560806887-1e4cd0b6cbd6?ixlib=rb-1.2.1&auto=format&fit=crop&w=300&h=200&q=80"
  const SpinachDescription: string := "Nutrient-rich spinach leaves for salads and cooking."
  const SpinachImage: string :=
    "https://images.unsplash.com/photo-1576045057995-568f588f82fb?ixlib=rb-1.2.1&auto=format&fit=crop&w=300&h=200&q=80"
  const OnionsDescription: string := "Essential kitchen staple for adding flavor to any dish."
  const OnionsImage: string :=
    "https://images.unsplash.com/photo-1618512496248-a07fe83aa8a0?ixlib=rb-1.2.1&auto=format&fit=crop&w=300&h=200&q=80"

  /** The four sample products the store is seeded with. */
  const InitialProducts: seq<NewProduct> :=
    [ NewProduct("Tomatoes", "Vegetables", 25, "kg",
        Some(TomatoesDescription),
        Some(TomatoesImage)),
      NewProduct("Apples", "Fruits", 120, "kg",
        Some(ApplesDescription),
        Some(ApplesImage)),
      NewProduct("Spinach", "Leafy Greens", 40, "bunch",
        Some(SpinachDescription),
        Some(SpinachImage)),
      NewProduct("Onions", "Vegetables", 30, "kg",
        Some(OnionsDescription),
        Some(OnionsImage)) ]

  /** Creates each payload in turn, as the seeding loop does. */
  function SeedProducts(s: Store, ps: seq<NewProduct>): (r: Store)
    requires Valid(s)
    ensures Valid(r)
    decreases |ps|
  {
    if |ps| == 0 then s else SeedProducts(CreateProduct(s, ps[0]).0, ps[1..])
  }

  /** The store as constructed: empty tables, both counters at 1, then the seed products. */
  function Init(): Store {
    SeedProducts(EmptyStore(), InitialProducts)
  }

  /** Seeding `ps` gives the next |ps| ids to the payloads in order and touches nothing else. */
  lemma SeedAssignsConsecutiveIds(s: Store, ps: seq<NewProduct>)
    requires Valid(s)
    ensures var r := SeedProducts(s, ps);
      && r.nextProductId == s.nextProductId + |ps|
      && r.orders == s.orders
      && r.nextOrderId == s.nextOrderId
      && (forall id :: id in r.products.rows <==>
            id in s.products.rows || s.nextProductId <= id < s.nextProductId + |ps|)
      && (forall id :: id in s.products.rows ==> r.products.rows[id] == s.products.rows[id])
      && (forall i :: 0 <= i < |ps| ==>
            r.products.rows[s.nextProductId + i] == ProductWithId(ps[i], s.nextProductId + i))
  {
    SeedCounters(s, ps);
    SeedKeys(s, ps);
    forall id | id in s.products.rows
      ensures SeedProducts(s, ps).products.rows[id] == s.products.rows[id]
    {
      SeedKeepsRow(s, ps, id);
    }
    forall i | 0 <= i < |ps|
      ensures SeedProducts(s, ps).products.rows[s.nextProductId + i] == ProductWithId(ps[i], s.nextProductId + i)
    {
      SeedNewRow(s, ps, i);
    }
  }

  lemma {:induction false} SeedCounters(s: Store, ps: seq<NewProduct>)
    requires Valid(s)
    ensures var r := SeedProducts(s, ps);
      r.nextProductId == s.nextProductId + |ps| && r.orders == s.orders && r.nextOrderId == s.nextOrderId
    decreases |ps|
  {
    if |ps| > 0 {
      SeedCounters(CreateProduct(s, ps[0]).0, ps[1..]);
    }
  }

  lemma {:induction false} SeedKeys(s: Store, ps: seq<NewProduct>)
    requires Valid(s)
    ensures forall id :: id in SeedProducts(s, ps).products.rows <==>
      id in s.products.rows || s.nextProductId <= id < s.nextProductId + |ps|
    decreases |ps|
  {
    if |ps| > 0 {
      SeedKeys(CreateProduct(s, ps[0]).0, ps[1..]);
    }
  }

  lemma {:induction false} SeedKeepsRow(s: Store, ps: seq<NewProduct>, id: int)
    requires Valid(s) && id in s.products.rows
    ensures id in SeedProducts(s, ps).products.rows
    ensures SeedProducts(s, ps).products.rows[id] == s.products.rows[id]
    decreases |ps|
  {
    if |ps| > 0 {
      SeedKeepsRow(CreateProduct(s, ps[0]).0, ps[1..], id);
    }
  }

  lemma {:induction false} SeedNewRow(s: Store, ps: seq<NewProduct>, i: int)
    requires Valid(s) && 0 <= i < |ps|
    ensures s.nextProductId + i in SeedProducts(s, ps).products.rows
    ensures SeedProducts(s, ps).products.rows[s.nextProductId + i] == ProductWithId(ps[i], s.nextProductId + i)
    decreases |ps|
  {
    var created := CreateProduct(s, ps[0]);
    var s1 := created.0;
    assert created.1 == ProductWithId(ps[0], s.nextProductId);
    assert SeedProducts(s, ps) == SeedProducts(s1, ps[1..]);
    var id := s.nextProductId + i;
    if i == 0 {
      assert id in s1.products.rows.Keys;
      SeedKeepsRow(s1, ps[1..], id);
    } else {
      assert s1.nextProductId + (i - 1) == id;
      SeedNewRow(s1, ps[1..], i - 1);
      assert ps[1..][i - 1] == ps[i];
    }
  }

  /** After construction there are exactly the four seed products, with ids 1 to 4 in seed
      order, no orders, and the counters stand at 5 and 1. */
  lemma InitialState()
    ensures Valid(Init())
    ensures Init().products.rows.Keys == {1, 2, 3, 4}
    ensures forall i :: 0 <= i < 4 ==> Init().products.rows[i + 1] == ProductWithId(InitialProducts[i], i + 1)
    ensures Init().nextProductId == 5
    ensures Init().orders.rows == map[] && Init().nextOrderId == 1
  {
    var s0, ps := EmptyStore(), InitialProducts;
    assert |ps| == 4 && s0.nextProductId == 1 && s0.products.rows == map[];
    SeedAssignsConsecutiveIds(s0, ps);
    var r := SeedProducts(s0, ps);
    assert r == Init();
    var keys := r.products.rows.Keys;
    assert forall id :: id in keys <==> 1 <= id < 5;
    assert keys == {1, 2, 3, 4};
  }

  // ---------------------------------------------------------------- products

  /** `getAllProducts`: the products in insertion order. */
  function GetAllProducts(s: Store): (r: seq<Product>)
    requires Valid(s)
    ensures |r| == |s.products.order|
    ensures forall i :: 0 <= i < |r| ==> r[i] in s.products.rows.Values
  {
    Tables.Values(s.products)
  }

  /** `getProductById`. */
  function GetProductById(s: Store, id: int): (r: Option<Product>)
    ensures r.Some? <==> id in s.products.rows
    ensures r.Some? ==> r.value == s.products.rows[id]
  {
    Tables.Get(s.products, id)
  }

  /** `createProduct`: the payload gets the current counter as id, the counter moves on, and
      the stored products before it are untouched. */
  function CreateProduct(s: Store, p: NewProduct): (r: (Store, Product))
    requires Valid(s)
    ensures Valid(r.0)
    ensures r.1.id == s.nextProductId && ProductFields(r.1) == p
    ensures s.nextProductId !in s.products.rows
    ensures r.0.nextProductId == s.nextProductId + 1
    ensures r.0.products.rows.Keys == s.products.rows.Keys + {r.1.id}
    ensures r.0.products.rows[r.1.id] == r.1
    ensures forall id :: id in s.products.rows ==> r.0.products.rows[id] == s.products.rows[id]
    ensures r.0.orders == s.orders && r.0.nextOrderId == s.nextOrderId
  {
    var id := s.nextProductId;
    var product := ProductWithId(p, id);
    (s.(products := Tables.Put(s.products, id, product), nextProductId := id + 1), product)
  }

  /** Two successive creations give strictly increasing, hence distinct, ids. */
  lemma CreateProductIdsIncrease(s: Store, p: NewProduct, q: NewProduct)
    requires Valid(s)
    ensures var (s1, a) := CreateProduct(s, p); var (_, b) := CreateProduct(s1, q);
      a.id < b.id
  {
  }

  /** `updateProduct`: a missing id gives `None` and the same store; otherwise only the
      supplied fields change, the id stays, and no other product moves. */
  function UpdateProduct(s: Store, id: int, patch: ProductPatch): (r: (Store, Option<Product>))
    requires Valid(s)
    ensures Valid(r.0)
    ensures id !in s.products.rows ==> r == (s, None)
    ensures id in s.products.rows ==>
      && r.1 == Some(ApplyPatch(s.products.rows[id], patch))
      && r.1.value.id == id
      && r.0.products.rows == s.products.rows[id := r.1.value]
      && r.0.products.order == s.products.order
      && r.0.orders == s.orders
      && r.0.nextProductId == s.nextProductId && r.0.nextOrderId == s.nextOrderId
  {
    match Tables.Get(s.products, id)
    case None => (s, None)
    case Some(existing) =>
      var updated := ApplyPatch(existing, patch);
      (s.(products := Tables.Put(s.products, id, updated)), Some(updated))
  }

  /** `deleteProduct`: true exactly when the id was present; afterwards it is absent and the
      other products are unchanged. */
  function DeleteProduct(s: Store, id: int): (r: (Store, bool))
    requires Valid(s)
    ensures Valid(r.0)
    ensures r.1 <==> id in s.products.rows
    ensures id !in r.0.products.rows
    ensures r.0.products.rows.Keys == s.products.rows.Keys - {id}
    ensures forall k :: k in r.0.products.rows ==> r.0.products.rows[k] == s.products.rows[k]
    ensures r.0.orders == s.orders && r.0.nextProductId == s.nextProductId && r.0.nextOrderId == s.nextOrderId
  {
    var (products, existed) := Tables.Remove(s.products, id);
    (s.(products := products), existed)
  }

  // ---------------------------------------------------------------- orders

  /** `getAllOrders`: the orders in insertion order. */
  function GetAllOrders(s: Store): (r: seq<Order>)
    requires Valid(s)
    ensures |r| == |s.orders.order|
    ensures forall i :: 0 <= i < |r| ==> r[i] in s.orders.rows.Values
  {
    Tables.Values(s.orders)
  }

  /** `getOrderById`. */
  function GetOrderById(s: Store, id: int): (r: Option<Order>)
    ensures r.Some? <==> id in s.orders.rows
    ensures r.Some? ==> r.value == s.orders.rows[id]
  {
    Tables.Get(s.orders, id)
  }

  /** Position `i` of `orders` is the first one carrying `orderNumber`. */
  ghost predicate FirstNumbered(orders: seq<Order>, orderNumber: string, i: int) {
    && 0 <= i < |orders|
    && orders[i].orderNumber == orderNumber
    && forall j :: 0 <= j < i ==> orders[j].orderNumber != orderNumber
  }

  /** `getOrderByOrderNumber`: the first stored order, in insertion order, with that number. */
  function GetOrderByOrderNumber(s: Store, orderNumber: string): (r: Option<Order>)
    requires Valid(s)
    ensures r.Some? ==> r.value.orderNumber == orderNumber && r.value in s.orders.rows.Values
    ensures r.None? ==> forall id :: id in s.orders.rows ==> s.orders.rows[id].orderNumber != orderNumber
    ensures r.Some? ==>
      exists i :: FirstNumbered(Tables.Values(s.orders), orderNumber, i) && Tables.Values(s.orders)[i] == r.value
  {
    Tables.ValuesAreRows(s.orders);
    var vs := Tables.Values(s.orders);
    var k := Seqs.FindIndex(vs, (o: Order) => o.orderNumber == orderNumber);
    if k == -1 then None
    else
      assert FirstNumbered(vs, orderNumber, k);
      Some(vs[k])
  }

  /** The status a new order gets: the supplied one, or "Pending" when it is absent or empty. */
  function InitialStatus(status: Option<string>): (r: string)
    ensures r != ""
    ensures status.Some? && status.value != "" ==> r == status.value
    ensures status.None? || status.value == "" ==> r == StatusLabel(Pending)
  {
    match status
    case Some(text) => if text != "" then text else StatusLabel(Pending)
    case None => StatusLabel(Pending)
  }

  /** `createOrder`: takes the counter as id, moves the counter on, and only then generates
      the order number, so the order numbered from the incremented counter. The payload is
      copied unchanged (the total is not recomputed) and the clock reading becomes
      `createdAt`. */
  function CreateOrder(s: Store, o: NewOrder, now: int): (r: (Store, Order))
    requires Valid(s)
    ensures Valid(r.0)
    ensures r.1.id == s.nextOrderId && s.nextOrderId !in s.orders.rows
    ensures r.0.nextOrderId == s.nextOrderId + 1
    ensures r.1.orderNumber == GenerateOrderNumber(s.nextOrderId + 1)
    ensures r.1.status == InitialStatus(o.status) && r.1.createdAt == now
    ensures && r.1.customerName == o.customerName && r.1.customerEmail == o.customerEmail
            && r.1.customerPhone == o.customerPhone && r.1.deliveryAddress == o.deliveryAddress
            && r.1.deliveryCity == o.deliveryCity && r.1.deliveryPincode == o.deliveryPincode
            && r.1.notes == o.notes && r.1.totalAmount == o.totalAmount && r.1.items == o.items
    ensures r.0.orders.rows.Keys == s.orders.rows.Keys + {r.1.id}
    ensures r.0.orders.rows[r.1.id] == r.1
    ensures forall id :: id in s.orders.rows ==> r.0.orders.rows[id] == s.orders.rows[id]
    ensures r.0.products == s.products && r.0.nextProductId == s.nextProductId
  {
    var id := s.nextOrderId;
    var counter := id + 1;
    var order := Order(
      id, GenerateOrderNumber(counter),
      o.customerName, o.customerEmail, o.customerPhone,
      o.deliveryAddress, o.deliveryCity, o.deliveryPincode,
      InitialStatus(o.status), o.notes, o.totalAmount, now, o.items);
    AddOrderKeepsValid(s, order);
    (s.(orders := Tables.Put(s.orders, id, order), nextOrderId := counter), order)
  }

  /** Storing a new order under the counter, numbered from the counter's successor, and
      moving the counter on keeps the store well formed. */
  lemma AddOrderKeepsValid(s: Store, order: Order)
    requires Valid(s)
    requires order.id == s.nextOrderId && order.orderNumber == GenerateOrderNumber(order.id + 1)
    ensures Valid(s.(orders := Tables.Put(s.orders, order.id, order), nextOrderId := order.id + 1))
  {
    forall i | 0 <= i < |s.orders.order|
      ensures s.orders.order[i] < order.id
    {
      assert s.orders.order[i] in s.orders.rows;
    }
    AppendLargerKeepsAscending(s.orders.order, order.id);
  }

  /** Appending a key larger than every listed one keeps the keys increasing. */
  lemma AppendLargerKeepsAscending(keys: seq<int>, k: int)
    requires Ascending(keys)
    requires forall i :: 0 <= i < |keys| ==> keys[i] < k
    ensures Ascending(keys + [k])
  {
    var r := keys + [k];
    forall i, j | 0 <= i < j < |r|
      ensures r[i] < r[j]
    {
      assert r[i] == keys[i];
    }
  }

  /** `updateOrderStatus`: a missing id gives `None` and the same store; otherwise the status
      becomes the given text (any text) and nothing else changes. */
  function UpdateOrderStatus(s: Store, id: int, status: string): (r: (Store, Option<Order>))
    requires Valid(s)
    ensures Valid(r.0)
    ensures id !in s.orders.rows ==> r == (s, None)
    ensures id in s.orders.rows ==>
      var old_ := s.orders.rows[id];
      && r.1.Some?
      && r.1.value.status == status
      && r.1.value == old_.(status := status)
      && r.1.value.orderNumber == old_.orderNumber && r.1.value.createdAt == old_.createdAt
      && r.1.value.items == old_.items && r.1.value.totalAmount == old_.totalAmount
      && r.0.orders.rows == s.orders.rows[id := r.1.value]
      && r.0.orders.order == s.orders.order
      && r.0.products == s.products
      && r.0.nextProductId == s.nextProductId && r.0.nextOrderId == s.nextOrderId
  {
    match Tables.Get(s.orders, id)
    case None => (s, None)
    case Some(existing) =>
      var updated := existing.(status := status);
      ReplaceOrderKeepsValid(s, updated);
      (s.(orders := Tables.Put(s.orders, id, updated)), Some(updated))
  }

  /** Overwriting a stored order with one of the same id and number keeps the store well
      formed; the key order does not change. */
  lemma ReplaceOrderKeepsValid(s: Store, order: Order)
    requires Valid(s)
    requires order.id in s.orders.rows && order.orderNumber == s.orders.rows[order.id].orderNumber
    ensures Tables.Put(s.orders, order.id, order).order == s.orders.order
    ensures Valid(s.(orders := Tables.Put(s.orders, order.id, order)))
  {
  }

  // ---------------------------------------------------------------- properties

  /** Up to and including order 10000 no two stored orders share an order number. */
  lemma OrderNumbersUnique(s: Store)
    requires Valid(s) && s.nextOrderId <= 10001
    ensures forall a, b :: a in s.orders.rows && b in s.orders.rows && a != b ==>
      s.orders.rows[a].orderNumber != s.orders.rows[b].orderNumber
  {
    forall a, b | a in s.orders.rows && b in s.orders.rows && a != b
      ensures s.orders.rows[a].orderNumber != s.orders.rows[b].orderNumber
    {
      if a < b {
        OrderNumbersDistinctWithinWindow(a + 1, b + 1);
      } else {
        OrderNumbersDistinctWithinWindow(b + 1, a + 1);
      }
    }
  }

  /** Any two counters below 90000 that are less than 10000 apart get distinct numbers. */
  lemma OrderNumbersDistinctWithinWindow(a: nat, b: nat)
    requires a < b < a + 10000 && b < 90000
    ensures GenerateOrderNumber(a) != GenerateOrderNumber(b)
  {
    if GenerateOrderNumber(a) == GenerateOrderNumber(b) {
      LastFourDigitsDiffer(a, b);
      OrderNumberKeepsLastFourDigits(a);
      OrderNumberKeepsLastFourDigits(b);
      AppendCancel(OrderNumberPrefix, Pad4(a % 10000), Pad4(b % 10000));
      Pad4Injective(a % 10000, b % 10000);
    }
  }

  /** Two numbers less than 10000 apart differ in their last four digits. */
  lemma LastFourDigitsDiffer(a: nat, b: nat)
    requires a < b < a + 10000
    ensures a % 10000 != b % 10000
  {
    var qa, qb := a / 10000, b / 10000;
    assert a == qa * 10000 + a % 10000 && b == qb * 10000 + b % 10000;
  }

  /** Tracking by number finds the stored order with that number that has the smallest id. */
  lemma TrackingFindsOldest(s: Store, orderNumber: string, id: int)
    requires Valid(s)
    requires id in s.orders.rows && s.orders.rows[id].orderNumber == orderNumber
    ensures GetOrderByOrderNumber(s, orderNumber).Some?
    ensures GetOrderByOrderNumber(s, orderNumber).value.id <= id
  {
    var r := GetOrderByOrderNumber(s, orderNumber);
    var vs := Tables.Values(s.orders);
    var i :| FirstNumbered(vs, orderNumber, i) && vs[i] == r.value;
    var p :| 0 <= p < |s.orders.order| && s.orders.order[p] == id;
    ListedOrdersCarryTheirKeys(s);
    FirstNumberedHasSmallestId(vs, s.orders.order, orderNumber, i, p);
  }

  /** The `i`-th listed order carries the `i`-th key as its id. */
  lemma ListedOrdersCarryTheirKeys(s: Store)
    requires Valid(s)
    ensures |Tables.Values(s.orders)| == |s.orders.order|
    ensures forall q :: 0 <= q < |s.orders.order| ==> Tables.Values(s.orders)[q].id == s.orders.order[q]
  {
    var vs := Tables.Values(s.orders);
    forall q | 0 <= q < |s.orders.order|
      ensures vs[q].id == s.orders.order[q]
    {
      assert vs[q] == s.orders.rows[s.orders.order[q]];
    }
  }

  /** In a list whose ids increase, the first order with a number has the smallest id among
      the orders with that number. */
  lemma FirstNumberedHasSmallestId(vs: seq<Order>, keys: seq<int>, orderNumber: string, i: int, p: int)
    requires |vs| == |keys| && Ascending(keys)
    requires forall q :: 0 <= q < |keys| ==> vs[q].id == keys[q]
    requires FirstNumbered(vs, orderNumber, i)
    requires 0 <= p < |vs| && vs[p].orderNumber == orderNumber
    ensures vs[i].id <= vs[p].id
  {
    if i < p {
      assert keys[i] < keys[p];
    }
  }

  /** Up to and including order 10000, tracking by number finds exactly the order carrying
      that number. */
  lemma TrackingFindsTheOrder(s: Store, id: int)
    requires Valid(s) && s.nextOrderId <= 10001
    requires id in s.orders.rows
    ensures GetOrderByOrderNumber(s, s.orders.rows[id].orderNumber) == Some(s.orders.rows[id])
  {
    var n := s.orders.rows[id].orderNumber;
    var r := GetOrderByOrderNumber(s, n);
    OrderNumbersUnique(s);
    var k :| k in s.orders.rows && s.orders.rows[k] == r.value;
    assert k == id;
  }

  /** Creating two orders from the same payload gives two distinct ids and order numbers. */
  lemma RepeatedOrdersDistinct(s: Store, o: NewOrder, t1: int, t2: int)
    requires Valid(s) && s.nextOrderId <= 9999
    ensures var (s1, a) := CreateOrder(s, o, t1); var (_, b) := CreateOrder(s1, o, t2);
      a.id != b.id && a.orderNumber != b.orderNumber
  {
    var (s1, a) := CreateOrder(s, o, t1);
    var (_, b) := CreateOrder(s1, o, t2);
    OrderNumbersDistinctWithinWindow(a.id + 1, b.id + 1);
  }

  /** The store wraps after 10000 orders: the orders with ids 1 and 10001 carry the same
      number, although the schema declares the number unique. */
  lemma WrappedOrdersCollide(s: Store)
    requires Valid(s)
    requires 1 in s.orders.rows && 10001 in s.orders.rows
    ensures s.orders.rows[1].orderNumber == s.orders.rows[10001].orderNumber
  {
    OrderNumberCollides(2);
  }

  /** After the wrap, tracking the number that orders 1 and 10001 share always finds order 1:
      order 10001 cannot be tracked by its number. */
  lemma WrappedTrackingFindsFirst(s: Store)
    requires Valid(s)
    requires 1 in s.orders.rows && 10001 in s.orders.rows
    ensures GetOrderByOrderNumber(s, s.orders.rows[10001].orderNumber) == Some(s.orders.rows[1])
  {
    WrappedOrdersCollide(s);
    var n := s.orders.rows[10001].orderNumber;
    TrackingFindsOldest(s, n, 1);
    var r := GetOrderByOrderNumber(s, n);
    var k :| k in s.orders.rows && s.orders.rows[k] == r.value;
    assert k == 1;
  }
}

=== FILE: strings.dfy ===
/** The few JavaScript string primitives the storefront relies on:
    `toLowerCase`, `includes`, `startsWith`, `String(n)` and `parseInt`. */
module Strings {
  import opened Wrappers

  // ---------------------------------------------------------------- case

  function LowerChar(c: char): char {
    if 'A' <= c <= 'Z' then (c as int + 32) as char else c
  }

  /** `toLowerCase`, restricted to ASCII letters. */
  function Lower(s: string): (r: string)
    ensures |r| == |s|
    ensures forall i :: 0 <= i < |r| ==> !('A' <= r[i] <= 'Z')
    ensures forall i :: 0 <= i < |s| && !('A' <= s[i] <= 'Z') ==> r[i] == s[i]
    ensures forall i :: 0 <= i < |s| && 'A' <= s[i] <= 'Z' ==> r[i] as int == s[i] as int + 32
  {
    seq(|s|, i requires 0 <= i < |s| => LowerChar(s[i]))
  }

  lemma LowerIdempotent(s: string)
    ensures Lower(Lower(s)) == Lower(s)
  {
  }

  // ---------------------------------------------------------------- search

  /** `startsWith`. */
  predicate StartsWith(s: string, prefix: string) {
    |prefix| <= |s| && s[..|prefix|] == prefix
  }

  /** `q` occurs in `s` starting at position `i`. */
  ghost predicate OccursAt(s: string, q: string, i: int) {
    0 <= i && i + |q| <= |s| && s[i..i + |q|] == q
  }

  /** `includes`: scans for the first position at which `q` occurs. */
  predicate Contains(s: string, q: string)
    decreases |s|
  {
    StartsWith(s, q) || (|s| > 0 && Contains(s[1..], q))
  }

  /** `Contains` agrees with the positional definition of an occurrence, both ways. */
  lemma {:induction false} ContainsIffOccurs(s: string, q: string)
    ensures Contains(s, q) <==> exists i :: OccursAt(s, q, i)
    decreases |s|
  {
    if StartsWith(s, q) {
      assert OccursAt(s, q, 0);
    } else if |s| == 0 {
    } else {
      ContainsIffOccurs(s[1..], q);
      if exists i :: OccursAt(s[1..], q, i) {
        var i :| OccursAt(s[1..], q, i);
        assert s[1..][i..i + |q|] == s[i + 1..i + 1 + |q|];
        assert OccursAt(s, q, i + 1);
      }
      if exists i :: OccursAt(s, q, i) {
        var i :| OccursAt(s, q, i);
        assert |q| <= |s| ==> s[0..|q|] == s[..|q|];
        assert s[1..][i - 1..i - 1 + |q|] == s[i..i + |q|];
        assert OccursAt(s[1..], q, i - 1);
      }
    }
  }

  /** Every string contains the empty string (so an empty search keeps everything). */
  lemma ContainsEmpty(s: string)
    ensures Contains(s, "")
  {
    assert StartsWith(s, "");
  }

  /** `substring(start, end)`: both bounds are clamped to `[0, |s|]` and swapped if reversed. */
  function Substring(s: string, start: int, end: int): (r: string)
    ensures |r| <= |s|
    ensures 0 <= start <= end <= |s| ==> r == s[start..end]
    ensures 0 <= end <= start <= |s| ==> r == s[end..start]
  {
    var a := Clamp(start, |s|);
    var b := Clamp(end, |s|);
    if a <= b then s[a..b] else s[b..a]
  }

  /** Reversed bounds are swapped: `substring(4, 1)` is `substring(1, 4)`. */
  lemma SubstringSwaps(s: string, start: int, end: int)
    ensures Substring(s, start, end) == Substring(s, end, start)
  {
  }

  /** A negative bound counts as 0 and a bound past the end as the length. */
  lemma SubstringClamps(s: string, start: int, end: int)
    ensures start < 0 ==> Substring(s, start, end) == Substring(s, 0, end)
    ensures end > |s| ==> Substring(s, start, end) == Substring(s, start, |s|)
  {
  }

  function Clamp(i: int, len: nat): (r: nat)
    ensures r <= len
  {
    if i < 0 then 0 else if i > len then len else i
  }

  // ---------------------------------------------------------------- numbers

  predicate IsDigit(c: char) {
    '0' <= c <= '9'
  }

  function DigitChar(d: nat): (c: char)
    requires d < 10
    ensures IsDigit(c)
  {
    "0123456789"[d]
  }

  /** The value of a digit or letter in bases up to 16 (`a`–`f` and `A`–`F` are 10–15). */
  function DigitValue(c: char): nat {
    if '0' <= c <= '9' then c as nat - '0' as nat
    else if 'a' <= c <= 'f' then c as nat - 'a' as nat + 10
    else if 'A' <= c <= 'F' then c as nat - 'A' as nat + 10
    else 16
  }

  predicate IsDigitIn(c: char, base: nat) {
    DigitValue(c) < base
  }

  lemma DigitCharValue(d: nat)
    requires d < 10
    ensures DigitValue(DigitChar(d)) == d
  {
  }

  /** `String(n)` for a natural number: decimal, no leading zeros. */
  function NatToString(n: nat): (r: string)
    ensures |r| >= 1 && IsDigit(r[0])
    decreases n
  {
    if n < 10 then [DigitChar(n)] else NatToString(n / 10) + [DigitChar(n % 10)]
  }

  /** `NatToString` produces a non-empty run of digits, with a leading zero only for zero. */
  lemma {:induction false} NatToStringDigits(n: nat)
    ensures |NatToString(n)| >= 1
    ensures forall i :: 0 <= i < |NatToString(n)| ==> IsDigit(NatToString(n)[i])
    ensures NatToString(n)[0] == '0' ==> n == 0
    decreases n
  {
    if n >= 10 {
      NatToStringDigits(n / 10);
      var r := NatToString(n);
      assert r[..|r| - 1] == NatToString(n / 10);
    }
  }

  /** `String(i)` for an integer. */
  function IntToString(i: int): (r: string)
    ensures |r| >= 1
    ensures r[0] == '-' <==> i < 0
    ensures i < 0 ==> |r| >= 2 && IsDigit(r[1])
  {
    if i < 0 then "-" + NatToString(-i) else NatToString(i)
  }

  /** The number a digit string denotes in `base`, most significant digit first. */
  function ValueIn(ds: string, base: nat): nat
    decreases |ds|
  {
    if |ds| == 0 then 0
    else ValueIn(ds[..|ds| - 1], base) * base + (if DigitValue(ds[|ds| - 1]) < base then DigitValue(ds[|ds| - 1]) else 0)
  }

  /** `NatToString` is decoded back by `ValueIn`, so distinct numbers print differently. */
  lemma {:induction false} NatToStringValue(n: nat)
    ensures ValueIn(NatToString(n), 10) == n
    decreases n
  {
    var r := NatToString(n);
    if n < 10 {
      DigitCharValue(n);
    } else {
      NatToStringValue(n / 10);
      DigitCharValue(n % 10);
      assert r[..|r| - 1] == NatToString(n / 10);
    }
  }

  lemma NatToStringInjective(m: nat, n: nat)
    requires NatToString(m) == NatToString(n)
    ensures m == n
  {
    NatToStringValue(m);
    NatToStringValue(n);
  }

  // ---------------------------------------------------------------- parseInt

  predicate IsSpace(c: char) {
    c == ' ' || c == '\t' || c == '\n' || c == '\r' || c == '\U{000B}' || c == '\U{000C}'
  }

  function TrimStart(s: string): (r: string)
    ensures |r| <= |s| && r == s[|s| - |r|..]
    ensures |r| > 0 ==> !IsSpace(r[0])
    decreases |s|
  {
    if |s| > 0 && IsSpace(s[0]) then TrimStart(s[1..]) else s
  }

  /** The longest prefix of `s` made of digits of `base`. */
  function DigitPrefix(s: string, base: nat): (r: string)
    ensures |r| <= |s| && r == s[..|r|]
    ensures forall i :: 0 <= i < |r| ==> IsDigitIn(r[i], base)
    ensures |r| < |s| ==> !IsDigitIn(s[|r|], base)
    decreases |s|
  {
    if |s| > 0 && IsDigitIn(s[0], base) then [s[0]] + DigitPrefix(s[1..], base) else []
  }

  /** The radix argument of `parseInt`: none given (hex prefix honoured) or explicitly 10. */
  datatype Radix = AutoRadix | Radix10

  /** JavaScript `parseInt(s)` / `parseInt(s, 10)`: skip leading white space, read an optional
      sign, then (without an explicit radix) an optional `0x`/`0X` prefix, then the longest run
      of digits. No digits gives `None` (NaN); trailing garbage is ignored. */
  function ParseInt(s: string, radix: Radix): (r: Option<int>)
    ensures |s| == 0 ==> r.None?
    ensures r.Some? && r.value < 0 ==> '-' in s
  {
    var t := TrimStart(s);
    if |t| > 0 && t[0] == '-' then Negate(ParseMagnitude(t[1..], radix))
    else if |t| > 0 && t[0] == '+' then ParseMagnitude(t[1..], radix)
    else ParseMagnitude(t, radix)
  }

  function Negate(m: Option<nat>): Option<int> {
    match m
    case None => None
    case Some(v) => Some(-(v as int))
  }

  predicate HasHexPrefix(u: string) {
    |u| >= 2 && u[0] == '0' && (u[1] == 'x' || u[1] == 'X')
  }

  /** The unsigned part: hexadecimal after `0x` when no radix is given, decimal otherwise. */
  function ParseMagnitude(u: string, radix: Radix): Option<nat> {
    if radix == AutoRadix && HasHexPrefix(u) then DigitsIn(u[2..], 16) else DigitsIn(u, 10)
  }

  function DigitsIn(body: string, base: nat): Option<nat> {
    var ds := DigitPrefix(body, base);
    if |ds| == 0 then None else Some(ValueIn(ds, base))
  }

  lemma DigitPrefixOfDigits(s: string)
    requires forall i :: 0 <= i < |s| ==> IsDigit(s[i])
    ensures DigitPrefix(s, 10) == s
  {
  }

  /** Text starting with a character other than white space or a sign is read as an
      unsigned magnitude. */
  lemma ParseUnsigned(t: string, radix: Radix)
    requires |t| > 0 && !IsSpace(t[0]) && t[0] != '-' && t[0] != '+'
    ensures ParseInt(t, radix) == ParseMagnitude(t, radix)
  {
    assert TrimStart(t) == t;
  }

  /** Text starting with '-' is read as the negated magnitude after it. */
  lemma ParseNegative(t: string, radix: Radix)
    requires |t| > 0 && t[0] == '-'
    ensures ParseInt(t, radix) == Negate(ParseMagnitude(t[1..], radix))
  {
    assert TrimStart(t) == t;
  }

  /** A printed natural number is read back as itself, in either radix mode. */
  lemma MagnitudeOfPrinted(n: nat, radix: Radix)
    ensures ParseMagnitude(NatToString(n), radix) == Some(n)
  {
    var ds := NatToString(n);
    NatToStringDigits(n);
    DigitPrefixOfDigits(ds);
    NatToStringValue(n);
    assert !HasHexPrefix(ds);
  }

  /** `parseInt(String(i))` is `i` for every integer, whatever the radix mode. */
  lemma ParseIntToString(i: int, radix: Radix)
    ensures ParseInt(IntToString(i), radix) == Some(i)
  {
    var n: nat := if i < 0 then -i else i;
    MagnitudeOfPrinted(n, radix);
    NatToStringDigits(n);
    var s := IntToString(i);
    if i < 0 {
      ParseNegative(s, radix);
      assert s[1..] == NatToString(n);
    } else {
      ParseUnsigned(s, radix);
    }
  }

  /** A string with no digit after its sign is rejected (NaN). */
  lemma ParseIntRejectsLetters()
    ensures ParseInt("abc", AutoRadix) == None
    ensures ParseInt("", Radix10) == None
  {
    assert TrimStart("abc") == "abc";
    assert !HasHexPrefix("abc");
    assert DigitPrefix("abc", 10) == [];
  }

  /** A digit run stops at the first character that is not a digit of the base. */
  lemma {:induction false} DigitPrefixAppend(d: string, g: string, base: nat)
    requires forall i :: 0 <= i < |d| ==> IsDigitIn(d[i], base)
    requires |g| == 0 || !IsDigitIn(g[0], base)
    ensures DigitPrefix(d + g, base) == d
  {
    if |d| > 0 {
      DigitPrefixAppend(d[1..], g, base);
      assert (d + g)[1..] == d[1..] + g;
    }
  }

  /** Decimal digits followed by anything that does not start with a digit parse as the
      digits alone: trailing garbage is ignored. */
  lemma ParseIntStopsAtNonDigit(d: string, g: string)
    requires |d| > 0 && forall i :: 0 <= i < |d| ==> IsDigit(d[i])
    requires |g| == 0 || !IsDigit(g[0])
    ensures ParseInt(d + g, Radix10) == Some(ValueIn(d, 10))
  {
    var s := d + g;
    assert s[0] == d[0];
    ParseUnsigned(s, Radix10);
    DigitPrefixAppend(d, g, 10);
  }

  /** "12abc" parses as 12. */
  lemma ParseIntStopsAtGarbage()
    ensures ParseInt("12abc", Radix10) == Some(12)
  {
    assert "12" + "abc" == "12abc";
    ParseIntStopsAtNonDigit("12", "abc");
    assert ValueIn("12", 10) == 12 by {
      assert "12"[..1] == "1";
      assert "1"[..0] == "";
    }
  }

  /** Without a radix a `0x` prefix switches to hexadecimal. */
  lemma ParseIntHexPrefix()
    ensures ParseInt("0x1A", AutoRadix) == Some(26)
  {
    assert TrimStart("0x1A") == "0x1A";
    assert HasHexPrefix("0x1A");
    assert "0x1A"[2..] == "1A";
    assert DigitPrefix("1A", 16) == "1A" by {
      assert "1A"[1..] == "A";
      assert "A"[1..] == "";
    }
    assert ValueIn("1A", 16) == 26 by {
      assert "1A"[..1] == "1";
      assert "1"[..0] == "";
    }
  }

  /** With radix 10 the same input stops after the `0`. */
  lemma ParseIntDecimalIgnoresHex()
    ensures ParseInt("0x1A", Radix10) == Some(0)
  {
    ParseIntStopsAtNonDigit("0", "x1A");
    assert "0" + "x1A" == "0x1A";
    assert ValueIn("0", 10) == 0 by {
      assert "0"[..0] == "";
    }
  }
}

=== FILE: tables.dfy ===
/** A keyed table that remembers insertion order, as a JavaScript `Map<number, V>` does:
    `set` on a new key appends it, `set` on an existing key keeps its position, `delete`
    removes it, and iteration follows the remaining insertion order. */
module Tables {
  import opened Wrappers
  import Seqs

  datatype Table<V> = Table(order: seq<int>, rows: map<int, V>)

  /** The key order lists each stored key exactly once. */
  ghost predicate Valid<V>(t: Table<V>) {
    && Distinct(t.order)
    && (forall i :: 0 <= i < |t.order| ==> t.order[i] in t.rows)
    && (forall k :: k in t.rows ==> k in t.order)
  }

  ghost predicate Distinct(s: seq<int>) {
    forall i, j :: 0 <= i < j < |s| ==> s[i] != s[j]
  }

  function Empty<V>(): (t: Table<V>)
    ensures Valid(t) && t.rows == map[]
  {
    Table([], map[])
  }

  /** `map.get(k)`. */
  function Get<V>(t: Table<V>, k: int): (r: Option<V>)
    ensures r.Some? <==> k in t.rows
    ensures r.Some? ==> r.value == t.rows[k]
  {
    if k in t.rows then Some(t.rows[k]) else None
  }

  /** `map.set(k, v)`. */
  function Put<V>(t: Table<V>, k: int, v: V): (r: Table<V>)
    requires Valid(t)
    ensures Valid(r)
    ensures r.rows == t.rows[k := v]
    ensures k in t.rows ==> r.order == t.order
    ensures k !in t.rows ==> r.order == t.order + [k]
  {
    if k in t.rows then Table(t.order, t.rows[k := v])
    else
      var r := Table(t.order + [k], t.rows[k := v]);
      assert forall i :: 0 <= i < |t.order| ==> r.order[i] == t.order[i];
      r
  }

  /** `map.delete(k)`: the new table and whether `k` was present. */
  function Remove<V>(t: Table<V>, k: int): (r: (Table<V>, bool))
    requires Valid(t)
    ensures Valid(r.0)
    ensures r.1 <==> k in t.rows
    ensures r.0.rows == t.rows - {k}
    ensures Seqs.IsSubsequence(r.0.order, t.order)
  {
    var keep := x => x != k;
    var order := Seqs.Filter(t.order, keep);
    Seqs.FilterIsSubsequence(t.order, keep);
    FilterKeepsDistinct(t.order, keep);
    (Table(order, t.rows - {k}), k in t.rows)
  }

  lemma {:induction false} FilterKeepsDistinct(s: seq<int>, p: int -> bool)
    requires Distinct(s)
    ensures Distinct(Seqs.Filter(s, p))
    decreases |s|
  {
    if |s| > 0 {
      FilterKeepsDistinct(s[1..], p);
      var rest := Seqs.Filter(s[1..], p);
      assert s[0] !in s[1..];
      assert s[0] !in rest;
      if p(s[0]) {
        var r := [s[0]] + rest;
        assert Seqs.Filter(s, p) == r;
        forall i, j | 0 <= i < j < |r|
          ensures r[i] != r[j]
        {
          if i == 0 {
            assert r[j] == rest[j - 1];
            assert rest[j - 1] in rest;
          } else {
            assert r[i] == rest[i - 1] && r[j] == rest[j - 1];
          }
        }
      } else {
        assert Seqs.Filter(s, p) == rest;
      }
    }
  }

  /** `Array.from(map.values())`: the stored values in key order. */
  function Values<V>(t: Table<V>): (r: seq<V>)
    requires forall i :: 0 <= i < |t.order| ==> t.order[i] in t.rows
    ensures |r| == |t.order|
    ensures forall i :: 0 <= i < |r| ==> r[i] == t.rows[t.order[i]]
    decreases |t.order|
  {
    if |t.order| == 0 then []
    else [t.rows[t.order[0]]] + Values(Table(t.order[1..], t.rows))
  }

  /** The listed values are exactly the stored values. */
  lemma ValuesAreRows<V>(t: Table<V>)
    requires Valid(t)
    ensures forall k :: k in t.rows ==> t.rows[k] in Values(t)
    ensures forall v :: v in Values(t) ==> exists k :: k in t.rows && t.rows[k] == v
  {
    var vs := Values(t);
    forall k | k in t.rows
      ensures t.rows[k] in vs
    {
      var i :| 0 <= i < |t.order| && t.order[i] == k;
      assert vs[i] == t.rows[k];
    }
  }
}

=== FILE: tracking.dfy ===
/** The order-tracking page's status timeline. */
module Tracking {
  import opened Wrappers
  import opened Schema

  datatype StepState = Completed | Current | Inactive

  /** The four steps of the timeline and the status each belongs to; the two middle
      steps ("Processing Order", "Out for Delivery") both belong to In Progress. */
  const StatusSteps: seq<OrderStatus> := [Pending, InProgress, InProgress, Delivered]

  /** The step the order is at: 0 for Pending, 2 for In Progress, 3 for Delivered,
      and 0 for any other status text, since the switch has no default case. */
  function CurrentStep(status: string): (r: nat)
    ensures r < |StatusSteps|
    ensures ParseStatus(status).Some? ==> StatusSteps[r] == ParseStatus(status).value
    ensures ParseStatus(status).None? ==> r == 0
  {
    if status == StatusLabel(InProgress) then 2
    else if status == StatusLabel(Delivered) then 3
    else 0
  }

  /** `getStepStatus`: with no order loaded every step is inactive; otherwise the
      steps before the current one are completed. */
  function StepStatus(order: Option<Order>, stepIndex: int): (r: StepState)
    ensures order.None? ==> r == Inactive
    ensures r == Current ==> 0 <= stepIndex < |StatusSteps|
    ensures r == Current && ParseStatus(order.value.status).Some? ==>
      StatusSteps[stepIndex] == ParseStatus(order.value.status).value
    ensures r == Completed ==> 0 <= stepIndex + 1 < |StatusSteps| || stepIndex < 0
  {
    match order
    case None => Inactive
    case Some(o) =>
      var current := CurrentStep(o.status);
      if stepIndex < current then Completed
      else if stepIndex == current then Current
      else Inactive
  }

  /** The states of all four steps, as the page draws them. */
  function Timeline(order: Option<Order>): (r: seq<StepState>)
    ensures |r| == |StatusSteps|
    ensures forall i :: 0 <= i < |r| ==> r[i] == StepStatus(order, i)
  {
    seq(|StatusSteps|, i => StepStatus(order, i))
  }

  /** With an order loaded exactly one step is current. */
  lemma ExactlyOneCurrent(o: Order)
    ensures exists i :: 0 <= i < |StatusSteps| && StepStatus(Some(o), i) == Current
    ensures forall i, j ::
      (0 <= i < |StatusSteps| && 0 <= j < |StatusSteps| &&
       StepStatus(Some(o), i) == Current && StepStatus(Some(o), j) == Current) ==> i == j
  {
    assert StepStatus(Some(o), CurrentStep(o.status)) == Current;
  }

  /** `k` completed steps, then the current one, then inactive ones. */
  function Shape(k: nat): seq<StepState>
    requires k < |StatusSteps|
  {
    seq(k, _ => Completed) + [Current] + seq(|StatusSteps| - k - 1, _ => Inactive)
  }

  /** The timeline is some completed steps, then the current one, then inactive ones. */
  lemma TimelineShape(o: Order)
    ensures exists k :: 0 <= k < |StatusSteps| && Timeline(Some(o)) == Shape(k)
  {
    var k := CurrentStep(o.status);
    var t := Timeline(Some(o));
    var shape := Shape(k);
    assert |t| == |shape|;
    forall i | 0 <= i < |t| ensures t[i] == shape[i] {
      if i < k {
        assert shape[i] == Completed;
      } else if i == k {
        assert shape[i] == Current;
      } else {
        assert shape[i] == Inactive;
      }
    }
    assert t == shape;
  }

  /** Without an order nothing is highlighted. */
  lemma NoOrderAllInactive()
    ensures Timeline(None) == [Inactive, Inactive, Inactive, Inactive]
  {
  }

  /** A status later in the order's life never shows fewer completed steps. */
  lemma LaterStatusCompletesMore(a: OrderStatus, b: OrderStatus, o: Order, i: int)
    requires StatusRank(a) <= StatusRank(b)
    requires StepStatus(Some(o.(status := StatusLabel(a))), i) == Completed
    ensures StepStatus(Some(o.(status := StatusLabel(b))), i) == Completed
  {
  }

  /** Pending, In Progress, Delivered: the order an order goes through. */
  function StatusRank(s: OrderStatus): (r: nat)
    ensures r == 0 <==> s == Pending
    ensures r == 2 <==> s == Delivered
  {
    match s
    case Pending => 0
    case InProgress => 1
    case Delivered => 2
  }

  /** The timelines of the three named statuses. */
  lemma NamedTimelines(o: Order)
    ensures Timeline(Some(o.(status := StatusLabel(Pending)))) == [Current, Inactive, Inactive, Inactive]
    ensures Timeline(Some(o.(status := StatusLabel(InProgress)))) == [Completed, Completed, Current, Inactive]
    ensures Timeline(Some(o.(status := StatusLabel(Delivered)))) == [Completed, Completed, Completed, Current]
  {
  }

  /** A status text outside the three named ones shows the order as just received. */
  lemma UnknownStatusLooksPending(o: Order)
    requires ParseStatus(o.status).None?
    ensures Timeline(Some(o)) == Timeline(Some(o.(status := StatusLabel(Pending))))
  {
  }
}

=== FILE: wrappers.dfy ===
/** The optional-value type used wherever the program returns `undefined` or `null`. */
module Wrappers {

  datatype Option<+T> = None | Some(value: T) {

    /** The wrapped value, or `default` when there is none (JavaScript's `x ?? default`, or a field an object spread does not supply). */
    function GetOr(default: T): T {
      match this
      case Some(v) => v
      case None => default
    }
  }
}
